=== FILE: README.md ===
# Browser automation agent core, in Dafny

A model of the decision-and-actuation core of the `BrowserAutomation` class
of the auto-gui application. The agent captures the screen, asks a language
model service for the next action as JSON, and injects that action as
pointer and keyboard events. The model covers these parts of that cycle:

- **Coordinates**: `transform_coordinates` maps a point into the compressed
  capture's coordinate space. The bounds pre-clamp at the start of the
  move/click branch is modelled with it.
- **ClickCorrector**: the background-colour test and `find_nearest_clickable`.
  It is written twice: as the source's nested `dx`/`dy` loop over a pixel
  grid, and as a functional scan. Both are proved equal to a declarative
  "first nearest candidate" predicate.
- **Executor**: `execute_action`.
  - It is modelled as the input-mode state machine (input mode, plus the last
    focus point and time) and a trace of injection events.
  - The clock is the `now` parameter.
  - Whether an injection call raises, and how, is the `fault` parameter.
- **Decision**: the reply handling of `get_ai_decision`.
  - It tries a strict parse, then takes the greedy `\{.*\}` span, then
    validates the schema.
  - Every failure gives the fallback; only a valid decision is appended to
    the action history.
  - The JSON decoder and Python's `str()` are parameters.
- **Naming**: the small string helpers. These are `sanitize_filename`, the
  task-name filter, the zero-padded step file name, the per-step action
  summary and `get_action_history`.
- **Compression**: the quality/scale parameter search of `capture_screen`.
  The JPEG encoder is a size oracle. The search is modelled as written (with
  a step bound) and corrected (see Findings).
- **Session**: one pass of the `run` loop, and the loop over a finite script
  of world inputs. The keyboard confirmation is reduced to its answer.

Modules: `Wrappers` (Option), `JsonValue` (decoded JSON values, Python
truthiness, numeric coercion of booleans), `Coordinates`, `ClickCorrector`,
`Executor`, `Decision`, `Naming`, `Compression`, `Session`.

## Model

| member | source | states |
|---|---|---|
| Coordinates.Trunc | apps/auto-gui/browser_automation.py:176-177 | `int()` of a float truncates toward zero: floor for non-negative values, ceiling for negative ones |
| Coordinates.ClampAxis | apps/auto-gui/browser_automation.py:183-184 | `min(max(0, v), hi)`: when `hi >= 0` the result lies in `[0, hi]`, is `v` inside that range, 0 below it and `hi` above it; when `hi < 0` it is `hi` |
| Coordinates.ScaleAxis | apps/auto-gui/browser_automation.py:176-184 | a scaled axis lies in `[0, int(dim*scale))` whenever that range is non-empty: it is `int(v*scale)` inside the range, 0 below it and `int(dim*scale) - 1` above it; with an empty range it is `int(dim*scale) - 1` |
| Coordinates.Transform | apps/auto-gui/browser_automation.py:172-188 | identity when no capture size is known or the scale is exactly 1.0; otherwise each axis is scaled and clamped against its own dimension |
| Coordinates.TransformInBounds | apps/auto-gui/browser_automation.py:172-188 | for any input point, negative or oversized, the transformed point lies in `[0, int(dim*scale)-1]` on both axes when both bounds are at least 0 |
| Coordinates.PreClamp | apps/auto-gui/browser_automation.py:211-219 | the pre-clamp never raises a coordinate. It leaves the point alone unless `x > w` or `y > h`, and then caps both axes at `dim-1`. There is no lower bound |
| Coordinates.PreClampPassesEdge | apps/auto-gui/browser_automation.py:214 | because the comparison is strict, a point exactly at `(w, h)` passes through unclamped |
| Coordinates.HalfScaleExample | apps/auto-gui/browser_automation.py:172-188 | at scale 0.5 on a 1000x1000 capture, (50, 50) maps to (25, 25) |
| ClickCorrector.BackgroundAllChannels | apps/auto-gui/browser_automation.py:471-473 | a pixel is background exactly when every channel of its tuple is strictly above 240: white is background, a channel of exactly 240 is not |
| ClickCorrector.Sample | apps/auto-gui/browser_automation.py:225-226 | reading a pixel fails exactly outside `[-dim, dim)` on either axis; otherwise it gives the stored colour at the index, with a negative index counted back from the end of its axis |
| ClickCorrector.FindNearest | apps/auto-gui/browser_automation.py:475-492 | None exactly when no in-bounds non-background pixel lies within the radius on both axes; otherwise the point is in bounds, not background, within the radius, and is the click point shifted by the first nearest offset in scan order |
| ClickCorrector.NearestOffsetSpec | apps/auto-gui/browser_automation.py:479-490 | the `(dx, dy)` scan keeps the candidate of least Manhattan distance, with ties going to the lexicographically first offset because of the strict `<`; there is none exactly when no candidate exists |
| ClickCorrector.ScanColumnsSpec | apps/auto-gui/browser_automation.py:479-490 | the outer loop's invariant: after columns `-r .. dx-1` the kept offset is the first nearest among the offsets scanned so far |
| ClickCorrector.ScanColumnSpec | apps/auto-gui/browser_automation.py:480-490 | the inner loop's invariant, over one column of `dy` values |
| ClickCorrector.FirstNearestUnique | apps/auto-gui/browser_automation.py:488-490 | at most one offset is both minimal and first in scan order, so the scan result is fully determined |
| ClickCorrector.CentreKept | apps/auto-gui/browser_automation.py:475-492 | an in-bounds non-background centre is returned unchanged |
| ClickCorrector.FindNearestClickable | apps/auto-gui/browser_automation.py:475-492 | the nested loop returns None exactly when there is no candidate, otherwise the shifted first nearest offset; it agrees with the functional scan |
| Executor.Classify | apps/auto-gui/browser_automation.py:192-206 | dispatch in the code's order: not a dict, no truthy `type`, a missing required field (checked against an independent table of required fields), an unknown type, or one of the six known actions with its fields |
| Executor.Coords | apps/auto-gui/browser_automation.py:214-219 | coordinates compare as numbers, booleans counting as 0/1; anything else makes the comparison raise |
| Executor.Target | apps/auto-gui/browser_automation.py:211-233 | the point to inject is the transformed point when its pixel is not background or when no candidate lies within the search radius; a background pixel with a candidate is replaced by the click point shifted by the first nearest offset; there is no point when reading the pixel raises |
| Executor.Inject | apps/auto-gui/browser_automation.py:236-288 | a raise at call k keeps exactly the first k calls and reports a fail-safe trip or a crash according to its kind. The state update happens only when nothing raises. A fail-safe trip keeps the state, and any other error drops input mode |
| Executor.Execute | apps/auto-gui/browser_automation.py:190-288 | keeps reachable states well formed. Rejected actions change nothing and emit nothing. Among failures only a crash drops input mode; a break key also leaves it. The focus changes only by entering input mode stamped `now` |
| Executor.FirstCallRaises | apps/auto-gui/browser_automation.py:204-288 | when the first injection call of a press, a scroll or a click on a readable pixel raises, nothing is injected; a fail-safe trip leaves the state as it was and any other error leaves only input mode dropped |
| Executor.AcceptedActionsInject | apps/auto-gui/browser_automation.py:204-274 | when the one injection call does not raise, a move or click injects exactly one event of its kind at `Target`'s point, a scroll injects its amount and a press its key; a pointer action with non-numeric coordinates or an unreadable target pixel crashes before injecting |
| Executor.ClickEntersInputMode | apps/auto-gui/browser_automation.py:237-243 | a click that runs emits one click and enters input mode focused on the clicked (possibly corrected) point at time `now` |
| Executor.BreakKeyLeavesInputMode | apps/auto-gui/browser_automation.py:263-269 | enter, escape or tab is pressed and leaves input mode; the focus record stays |
| Executor.OtherActionsKeepState | apps/auto-gui/browser_automation.py:235-277 | move, scroll, `none`, typing and any other key leave the input state unchanged when they run, and `none` injects nothing |
| Executor.TypeOutsideInputModeDropped | apps/auto-gui/browser_automation.py:250-253 | typing outside input mode emits nothing and changes nothing |
| Executor.TypeRefocusesWhenStale | apps/auto-gui/browser_automation.py:255-261 | a focus older than 5 seconds is clicked again before typing, without refreshing its time; a fresh focus types directly |
| Executor.RejectedActionsInert | apps/auto-gui/browser_automation.py:192-206 | a non-dict, an untyped action, a missing field or an unknown type emits nothing and changes nothing |
| Executor.ReachableWf | apps/auto-gui/browser_automation.py:240-243 | from a well-formed state, any sequence of actions keeps input mode tied to a recorded focus |
| Executor.HalfScaleClickExample | apps/auto-gui/browser_automation.py:204-243 | a click at (50, 50) with capture scale 0.5 on a 1000x1000 screen lands on (25, 25) when that pixel is not background, and focuses it |
| Decision.Backtrack | apps/auto-gui/browser_automation.py:380 | the greedy `.*\}` gives back characters from the end until the span ends in `}` |
| Decision.SearchFrom | apps/auto-gui/browser_automation.py:380 | the search finds the leftmost `{` that some later `}` closes, ending at the last `}`. It finds nothing exactly when no `}` follows any `{` |
| Decision.ExtractSpanFirstToLast | apps/auto-gui/browser_automation.py:377-383 | the extracted span runs from the first `{` to the last `}` inclusive; there is none exactly when no `}` follows a `{` |
| Decision.EmbeddedObjectExtracted | apps/auto-gui/browser_automation.py:380 | an object wrapped in prose is extracted exactly, inner braces included |
| Decision.ParseReply | apps/auto-gui/browser_automation.py:374-389 | the whole reply is used when it parses; otherwise the span is parsed, and with no span there is no result |
| Decision.Validate | apps/auto-gui/browser_automation.py:391-405 | a parsed reply is accepted exactly when it meets the independently stated schema. That schema is a dict with `action` and `completed`, an `action` dict typed with one of the six types, and a boolean `completed` |
| Decision.GetDecision | apps/auto-gui/browser_automation.py:374-414 | the history grows by at most one entry, and only with a decision whose action carries a valid type |
| Decision.HistoryEntry | apps/auto-gui/browser_automation.py:408 | the history line is the action's type, then `: `, then the rendering of the whole action |
| Decision.DecisionFallbackUnlessValid | apps/auto-gui/browser_automation.py:374-414 | the decision is the fallback with the history unchanged unless the parsed reply meets the schema; then it is the reply's own action and flag, with exactly one new history entry |
| Decision.NoSpanFallback | apps/auto-gui/browser_automation.py:377-383 | a reply that does not parse and has no `}` after a `{` gives the fallback |
| Decision.MissingCompletedRefused | apps/auto-gui/browser_automation.py:395-396 | a dict reply without `completed` gives the fallback |
| Naming.SanitizeFilename | apps/auto-gui/browser_automation.py:73-79 | each of the nine listed characters becomes `_`, every other character stays, and no listed character survives |
| Naming.ReplaceEach | apps/auto-gui/browser_automation.py:77-78 | successive `replace` passes amount to one per-character substitution when the replacement is not itself replaced |
| Naming.SanitizeIdempotent | apps/auto-gui/browser_automation.py:73-79 | sanitizing a sanitized name changes nothing |
| Naming.Strip | apps/auto-gui/browser_automation.py:63 | the result is the middle of the input with only spaces removed from both ends, and it neither starts nor ends with a space |
| Naming.Filter | apps/auto-gui/browser_automation.py:63 | the kept characters are alphanumeric, space or underscore; an input of kept characters comes back unchanged; a single character survives exactly when it is kept |
| Naming.FilterAppend | apps/auto-gui/browser_automation.py:63 | filtering a concatenation filters each part and concatenates the results, so together with `Filter` the result is the input with exactly the other characters removed, in order |
| Naming.TaskName | apps/auto-gui/browser_automation.py:63 | the task name has at most 30 characters, all alphanumeric, space or underscore, with no space at either end, and it is the filtered first 30 characters of the task with only spaces removed from both ends |
| Naming.TaskNameIdempotent | apps/auto-gui/browser_automation.py:63 | filtering a task name again changes nothing |
| Naming.Pad3RoundTrip | apps/auto-gui/browser_automation.py:83 | the zero-padded counter reads back as the counter |
| Naming.StepFileName | apps/auto-gui/browser_automation.py:83 | the file name is `step_`, the padded counter and `_`, then the sanitized summary, then `.jpg` |
| Naming.StepFileNameClean | apps/auto-gui/browser_automation.py:73-83 | no step file name contains any of the nine characters `sanitize_filename` replaces, whatever the summary |
| Naming.StepFileNamesDistinct | apps/auto-gui/browser_automation.py:70-83 | two different counters never give the same file name, whatever the summaries |
| Naming.ActionInfo | apps/auto-gui/browser_automation.py:432-436 | no summary exactly for a non-dict, a missing `type`, or (without both coordinates) a `text` that is neither a string nor a list. Otherwise the summary is the type followed by `_at_<x>_<y>` when both coordinates are present, else `_` and the first 20 characters or items of the text, else nothing |
| Naming.CoordinatesOverrideText | apps/auto-gui/browser_automation.py:433-436 | with both coordinates present, changing or adding `text` leaves the summary unchanged |
| Naming.SummaryKeepsTwentyCharacters | apps/auto-gui/browser_automation.py:435-436 | without both coordinates, two string texts that agree on their first 20 characters give the same summary |
| Naming.BulletsLines | apps/auto-gui/browser_automation.py:510 | single-line entries give one bullet line per entry |
| Naming.SplitAfterLine | apps/auto-gui/browser_automation.py:510 | a string without a newline splits into itself, and a newline after it starts the next line |
| Naming.BulletsSplit | apps/auto-gui/browser_automation.py:510 | split back into lines, the joined bullets are exactly `- ` followed by each newline-free entry, in order |
| Naming.HistoryText | apps/auto-gui/browser_automation.py:506-510 | the placeholder appears exactly when the history is empty; otherwise the text is the bulleted last three entries |
| Naming.HistoryShowsLastThree | apps/auto-gui/browser_automation.py:506-510 | with single-line entries the prompt shows exactly `min(3, n)` lines |
| Naming.HistoryLinesAreLastThree | apps/auto-gui/browser_automation.py:506-510 | split into lines, the history text is `- ` followed by each of the last three newline-free entries, oldest first |
| Compression.AfterEncodeAsWritten | apps/auto-gui/browser_automation.py:161-170 | accept at or under budget, or at the quality floor below scale 0.2. Otherwise shrink the scale by 0.7 over twice the budget, else lower quality by 10 down to 5 |
| Compression.StepAsWritten | apps/auto-gui/browser_automation.py:147-170 | an iteration stops at the minimum dimension exactly when either scaled side is under 480; otherwise it is decided by the encoded size |
| Compression.CompressAsWritten | apps/auto-gui/browser_automation.py:146-170 | any frame the loop accepts is within budget or below scale 0.2; with at least one step left, an accepted first probe gives that frame and a first probe below the minimum dimension gives no frame |
| Compression.AsWrittenStalls | apps/auto-gui/browser_automation.py:161-170 | at quality 5 and scale at least 0.2, an over-budget size of at most twice the budget retries with identical parameters |
| Compression.AsWrittenNeverFinishes | apps/auto-gui/browser_automation.py:143-170 | a 1920x1080 screen whose frame always encodes to 40 KiB never leaves the loop, for any step bound |
| Compression.AsWrittenFinishesWithinBudget | apps/auto-gui/browser_automation.py:143-170 | a 1920x1080 screen whose frame always fits the budget is accepted on the first probe as a 960x540 frame at scale 0.5 |
| Compression.ShrinkLowersWidth | apps/auto-gui/browser_automation.py:146-167 | shrinking a frame of at least 480 pixels strictly lowers its truncated width |
| Compression.StepCorrected | apps/auto-gui/browser_automation.py:147-170 | the corrected iteration never retries with the parameters it was given, and a retry never raises the scale or drops it to zero |
| Compression.CorrectedAgreesOffFloor | apps/auto-gui/browser_automation.py:161-170 | above the quality floor, or with a payload over twice the budget, the corrected iteration is the iteration as written |
| Compression.CompressCorrected | apps/auto-gui/browser_automation.py:143-170 | the corrected search always ends. An accepted first probe gives that frame. Any frame is at least 480 on each side and within budget or below scale 0.2. No frame means some scale no larger than the starting one put a side under 480 |
| Session.Setup | apps/auto-gui/browser_automation.py:60-66 | starting a task resets only the step counter; the input state, history, scale and capture size stay |
| Session.RunStep | apps/auto-gui/browser_automation.py:424-452 | the pass records the capture size. The scale changes only on an accepted capture. The history becomes the one the decision step produced, or stays when no frame was captured. After a capture, a screenshot is saved, before the confirmation, exactly when the summary can be built, under that summary; a summary that raises ends the run unsuccessfully with nothing injected. The counter grows by one per saved screenshot. Injection and continuing both require Enter. Input-state well-formedness is kept |
| Session.AbortStops | apps/auto-gui/browser_automation.py:441-444 | Esc ends the run unsuccessfully and injects nothing |
| Session.CompletedStopsAfterExecuting | apps/auto-gui/browser_automation.py:446-452 | after Enter, the run ends successfully exactly when the decision says completed, and the action has been executed first |
| Session.NoneNotExecuted | apps/auto-gui/browser_automation.py:447-448 | a `none` action is never handed to the executor |
| Session.NoFrameStops | apps/auto-gui/browser_automation.py:146-153 | a capture that breaks on the minimum dimension ends the run unsuccessfully before the service is asked |
| Session.RunNumbersFiles | apps/auto-gui/browser_automation.py:66-83 | over a run, the counter equals the number of saved screenshots, the i-th carries counter `i + 1` from the start, and input-state well-formedness holds throughout |
| Session.TaskNumbersFromOne | apps/auto-gui/browser_automation.py:60-83 | every task, whatever earlier tasks on the same object saved, numbers its screenshots 1, 2, 3, ... and keeps the input state well formed |
| Session.FreshObjectNumbersFromOne | apps/auto-gui/browser_automation.py:30-42 | the first task of a newly constructed object numbers its screenshots from 1 and keeps the input state well formed |
| Session.RunFilesDistinct | apps/auto-gui/browser_automation.py:70-83 | no two screenshots of one run share a file name |

## Left out

- The service client, proxy setup and prompt construction (lines 16-22 and 293-370) are left out. They are network I/O and prompt text. A request that raises is modelled as a missing reply.
- `json.loads` is a parameter (`Parser`). Decoded numbers are integers only: floating-point JSON numbers are not modelled.
- Python's `str()` of a decoded value is a parameter (`Render`, `show`). The exact text of dict and list renderings is not modelled.
- Grid drawing, alpha compositing, resizing, grayscale conversion, JPEG encoding and base64 (lines 117-165) are image-library work. Only the parameter search is modelled, over a size oracle.
- ClickCorrector.Screen: a screenshot is a sequence of equal-length rows of RGB triples rather than an image object with a pixel accessor; only the pixel values and the dimensions are modelled.
- Sampling a pixel assumes the imaging library's behaviour for integer indices. A negative index wraps once and anything else outside the image raises.
- The injection library is modelled as an event trace. Screenshots are a parameter, `time.time()` is `now`, and `time.sleep` is dropped.
- The keyboard confirmation and its `input()` fallback (lines 94-113) are reduced to the user's answer. A KeyboardInterrupt is not modelled separately; it ends the run unsuccessfully like any other error.
- Filesystem writes, directory creation, the timestamp in the directory name, logging and printing are left out. So is `get_input_context` (lines 497-504), which only formats time.
- `current_scale` is a `real`, not a binary float: rounding of `scale * 0.7` is not modelled.
- Naming.Strip: it removes only spaces. Python's `strip()` removes all whitespace, but after the task-name filter the only whitespace left is the space, assuming the classifier never calls whitespace alphanumeric.
- Compression.CompressAsWritten: it takes a step bound (`fuel`), because the loop as written need not end (see Findings). `OutOfFuel` stands for "has not finished yet", not for any behaviour of the code.
- Session.Run: the loop runs over a finite script of world inputs and reports `Continue` when the script runs out. The code would keep going.
- The scale the compression search settled on is an input to a pass, not derived from the compression model, because the search as written need not finish.
- The desktop entry point (`main.py`) and the chat-bot wrapper (`base.py`) are not part of this model.

## Findings

| source | as written | input that shows it | evidently intended | confidence | as-written member | corrected member |
|---|---|---|---|---|---|---|
| apps/auto-gui/browser_automation.py:161-170 | at quality 5 with budget < size ≤ 2×budget and scale ≥ 0.2, neither the accept test nor the shrink test fires, and quality is already at its floor, so the next iteration repeats the same probe | a 1920x1080 screen whose frame encodes to 40 KiB at scale 0.5: quality falls 50→5, then the loop spins forever | once quality cannot drop further, shrink the scale so the search always ends | not executed | Compression.AsWrittenNeverFinishes | Compression.CompressCorrected |

## Notes on the code

These are points where the code's behaviour may surprise:

- A fail-safe trip in the injection library is only logged. It neither aborts the run nor changes the input state.
- The stale-focus re-click before typing does not refresh the focus time. Every later `type` action re-clicks until a new click action runs.
- When the compression search leaves by the minimum-dimension `break`, `capture_screen` returns nothing. The tuple unpacking in `run` then raises and the run ends unsuccessfully. A 1366x768 screen already gives 384 < 480 on the first probe.
- The pre-clamp's comparison is strict, and it has no lower bound. Negative coordinates reach the transform, which clamps them to 0, or, at scale 1.0, reach pixel sampling, which wraps them.

=== FILE: compression.dfy ===
/**
 * The parameter search of `capture_screen`: starting at quality 50 and scale
 * 0.5, the grid-annotated capture is resized, converted to grayscale and
 * encoded until the payload fits the byte budget. The encoder is a size
 * oracle from (width, height, quality) to a byte count; the search itself
 * is modelled exactly, the imaging is not.
 */
module Compression {

  import opened Coordinates

  /** `MAX_SIZE_KB` = 30, as bytes: `len / 1024 <= 30` exactly when `len <= 30720`. */
  const BudgetBytes: nat := 30 * 1024

  const MinQuality: int := 5
  const MinDimension: int := 480
  const StartQuality: int := 50
  const StartScale: real := 0.5
  const QualityStep: int := 10
  const ShrinkFactor: real := 0.7

  /** JPEG byte count of the resized grayscale frame, by (width, height, quality). */
  type SizeOracle = (int, int, int) -> nat

  datatype Probe = Probe(quality: int, scale: real)

  datatype Verdict =
    | TooSmall                                              // the `break` on the minimum dimension
    | Accept(width: int, height: int, scale: real, size: nat)
    | Retry(next: Probe)

  /** What the search hands back to the capture. */
  datatype Capture =
    | Frame(width: int, height: int, scale: real, size: nat)
    | NoFrame      // the loop was left by `break`: the function falls off its end and returns `None`
    | OutOfFuel    // the search had not finished within the step bound

  /** The frame dimensions at a given scale, truncated as `int()` does. */
  function Scaled(d: int, scale: real): int {
    Trunc(d as real * scale)
  }

  /** What the loop as written does once a frame of `nw` x `nh` has encoded to `size` bytes. */
  function AfterEncodeAsWritten(p: Probe, nw: int, nh: int, size: nat): (v: Verdict)
    ensures v.Accept? <==> size <= BudgetBytes || (p.quality <= MinQuality && p.scale < 0.2)
    ensures v.Accept? ==> v == Accept(nw, nh, p.scale, size)
    ensures v.Retry? && size > 2 * BudgetBytes ==> v.next == Probe(p.quality, p.scale * ShrinkFactor)
    ensures v.Retry? && size <= 2 * BudgetBytes ==> v.next == Probe(Max(p.quality - QualityStep, MinQuality), p.scale)
  {
    if size <= BudgetBytes || (p.quality <= MinQuality && p.scale < 0.2) then Accept(nw, nh, p.scale, size)
    else if size > 2 * BudgetBytes then Retry(Probe(p.quality, p.scale * ShrinkFactor))
    else Retry(Probe(Max(p.quality - QualityStep, MinQuality), p.scale))
  }

  /** One iteration of the loop as written. */
  function StepAsWritten(w: int, h: int, oracle: SizeOracle, p: Probe): (v: Verdict)
    ensures v.TooSmall? <==> Scaled(w, p.scale) < MinDimension || Scaled(h, p.scale) < MinDimension
    ensures !v.TooSmall? ==> v == AfterEncodeAsWritten(p, Scaled(w, p.scale), Scaled(h, p.scale), oracle(Scaled(w, p.scale), Scaled(h, p.scale), p.quality))
  {
    var nw, nh := Scaled(w, p.scale), Scaled(h, p.scale);
    if nw < MinDimension || nh < MinDimension then TooSmall
    else AfterEncodeAsWritten(p, nw, nh, oracle(nw, nh, p.quality))
  }

  /** The loop as written, run for at most `fuel` iterations. */
  function CompressAsWritten(w: int, h: int, oracle: SizeOracle, p: Probe, fuel: nat): (c: Capture)
    ensures c.Frame? ==> c.size <= BudgetBytes || c.scale < 0.2
    ensures var v := StepAsWritten(w, h, oracle, p);
      && (fuel > 0 && v.Accept? ==> c == Frame(v.width, v.height, v.scale, v.size))
      && (fuel > 0 && v.TooSmall? ==> c == NoFrame)
    decreases fuel
  {
    if fuel == 0 then OutOfFuel
    else
      match StepAsWritten(w, h, oracle, p)
      case TooSmall => NoFrame
      case Accept(nw, nh, scale, size) => Frame(nw, nh, scale, size)
      case Retry(next) => CompressAsWritten(w, h, oracle, next, fuel - 1)
  }

  /**
   * At the quality floor, with a payload over budget but at most twice it and
   * a scale of at least 0.2, the loop retries with exactly the same
   * parameters, so a deterministic encoder repeats the same size forever.
   */
  lemma AsWrittenStalls(w: int, h: int, oracle: SizeOracle, p: Probe)
    requires p.quality == MinQuality && p.scale >= 0.2
    requires Scaled(w, p.scale) >= MinDimension && Scaled(h, p.scale) >= MinDimension
    requires BudgetBytes < oracle(Scaled(w, p.scale), Scaled(h, p.scale), p.quality) <= 2 * BudgetBytes
    ensures StepAsWritten(w, h, oracle, p) == Retry(p)
  {
    var nw, nh := Scaled(w, p.scale), Scaled(h, p.scale);
    var v := AfterEncodeAsWritten(p, nw, nh, oracle(nw, nh, p.quality));
    assert v.Retry? && v.next == Probe(Max(MinQuality - QualityStep, MinQuality), p.scale);
  }

  /** An encoder that always lands within budget. */
  function TenKiB(width: int, height: int, quality: int): nat {
    10 * 1024
  }

  /** A 1920x1080 screen whose frame fits the budget is accepted on the first probe, at half size. */
  lemma AsWrittenFinishesWithinBudget(fuel: nat)
    requires fuel > 0
    ensures CompressAsWritten(1920, 1080, TenKiB, Probe(StartQuality, StartScale), fuel) == Frame(960, 540, StartScale, 10 * 1024)
  {
    assert Scaled(1920, StartScale) == 960 && Scaled(1080, StartScale) == 540;
  }

  /** An encoder that produces 40 KiB whatever it is given. */
  function FortyKiB(width: int, height: int, quality: int): nat {
    40 * 1024
  }

  lemma {:induction false} StuckAtFloor(fuel: nat)
    ensures CompressAsWritten(1920, 1080, FortyKiB, Probe(MinQuality, StartScale), fuel) == OutOfFuel
    decreases fuel
  {
    if fuel > 0 {
      assert Scaled(1920, StartScale) == 960 && Scaled(1080, StartScale) == 540;
      AsWrittenStalls(1920, 1080, FortyKiB, Probe(MinQuality, StartScale));
      StuckAtFloor(fuel - 1);
    }
  }

  lemma {:induction false} DescendToFloor(q: int, fuel: nat)
    requires MinQuality <= q <= StartQuality
    ensures CompressAsWritten(1920, 1080, FortyKiB, Probe(q, StartScale), fuel) == OutOfFuel
    decreases q, fuel
  {
    if q == MinQuality {
      StuckAtFloor(fuel);
    } else if fuel > 0 {
      assert Scaled(1920, StartScale) == 960 && Scaled(1080, StartScale) == 540;
      assert StepAsWritten(1920, 1080, FortyKiB, Probe(q, StartScale))
          == Retry(Probe(Max(q - QualityStep, MinQuality), StartScale));
      DescendToFloor(Max(q - QualityStep, MinQuality), fuel - 1);
    }
  }

  /**
   * A 1920x1080 screen whose frame always encodes to 40 KiB never leaves the
   * loop: quality falls from 50 to 5 and then nothing changes again.
   */
  lemma AsWrittenNeverFinishes(fuel: nat)
    ensures CompressAsWritten(1920, 1080, FortyKiB, Probe(StartQuality, StartScale), fuel) == OutOfFuel
  {
    DescendToFloor(StartQuality, fuel);
  }

  /** Shrinking a frame of at least the minimum width strictly lowers its truncated width. */
  lemma ShrinkLowersWidth(w: nat, scale: real)
    requires scale > 0.0 && Scaled(w, scale) >= MinDimension
    ensures 0 <= Scaled(w, (scale * ShrinkFactor)) < Scaled(w, scale)
  {
    var x := w as real * scale;
    assert w as real * (scale * ShrinkFactor) == x * ShrinkFactor;
    assert x >= 480.0;
  }

  /** One iteration with the floor fixed: once quality cannot drop further, shrink the scale instead. */
  function StepCorrected(w: int, h: int, oracle: SizeOracle, p: Probe): (v: Verdict)
    ensures v.TooSmall? <==> Scaled(w, p.scale) < MinDimension || Scaled(h, p.scale) < MinDimension
    ensures v.Retry? ==> v.next != p
    ensures p.scale > 0.0 && v.Retry? ==> 0.0 < v.next.scale <= p.scale
  {
    var nw, nh := Scaled(w, p.scale), Scaled(h, p.scale);
    if nw < MinDimension || nh < MinDimension then TooSmall
    else
      var size := oracle(nw, nh, p.quality);
      if size <= BudgetBytes || (p.quality <= MinQuality && p.scale < 0.2) then Accept(nw, nh, p.scale, size)
      else if size > 2 * BudgetBytes || p.quality <= MinQuality then Retry(Probe(p.quality, p.scale * ShrinkFactor))
      else Retry(Probe(Max(p.quality - QualityStep, MinQuality), p.scale))
  }

  /** Above the quality floor, or with a payload over twice the budget, the correction changes nothing. */
  lemma CorrectedAgreesOffFloor(w: int, h: int, oracle: SizeOracle, p: Probe)
    requires p.quality > MinQuality || oracle(Scaled(w, p.scale), Scaled(h, p.scale), p.quality) > 2 * BudgetBytes
    ensures StepCorrected(w, h, oracle, p) == StepAsWritten(w, h, oracle, p)
  {
  }

  /**
   * The corrected search needs no fuel: every retry lowers either the
   * truncated width or the quality, so it always ends, and it ends with a
   * payload within budget, at the floor below scale 0.2, or at the minimum
   * dimension.
   */
  function CompressCorrected(w: nat, h: nat, oracle: SizeOracle, p: Probe): (c: Capture)
    requires p.scale > 0.0
    ensures c.Frame? || c.NoFrame?
    ensures c.Frame? ==> c.size <= BudgetBytes || c.scale < 0.2
    ensures c.Frame? ==> c.width >= MinDimension && c.height >= MinDimension
    ensures var v := StepCorrected(w, h, oracle, p);
      && (v.Accept? ==> c == Frame(v.width, v.height, v.scale, v.size))
      && (v.TooSmall? ==> c == NoFrame)
    ensures c.NoFrame? ==>
      exists s: real :: 0.0 < s <= p.scale && (Scaled(w, s) < MinDimension || Scaled(h, s) < MinDimension)
    decreases Scaled(w, p.scale), p.quality
  {
    match StepCorrected(w, h, oracle, p)
    case TooSmall =>
      assert Scaled(w, p.scale) < MinDimension || Scaled(h, p.scale) < MinDimension;
      NoFrame
    case Accept(nw, nh, scale, size) => Frame(nw, nh, scale, size)
    case Retry(next) =>
      ShrinkLowersWidth(w, p.scale);
      CompressCorrected(w, h, oracle, next)
  }
}

=== FILE: coordinates.dfy ===
/**
 * Coordinate remapping for pointer actions (`transform_coordinates` and the
 * bounds pre-clamp at the start of the move/click branch of `execute_action`).
 * The scale factor is the compression scale chosen for the last capture.
 */
module Coordinates {

  import opened Wrappers

  datatype Point = Point(x: int, y: int)

  datatype Size = Size(width: int, height: int)

  /** Python `int()` of a float: truncation toward zero. */
  function Trunc(r: real): (t: int)
    ensures r >= 0.0 ==> t as real <= r < t as real + 1.0
    ensures r < 0.0 ==> t as real - 1.0 < r <= t as real
  {
    if r >= 0.0 then r.Floor else -((-r).Floor)
  }

  function Min(a: int, b: int): int {
    if a <= b then a else b
  }

  function Max(a: int, b: int): int {
    if a >= b then a else b
  }

  /** `min(max(0, v), hi)`: the clamp applied to each scaled coordinate. */
  function ClampAxis(v: int, hi: int): (r: int)
    ensures hi >= 0 ==> 0 <= r <= hi
    ensures 0 <= v <= hi ==> r == v
    ensures 0 <= hi && v < 0 ==> r == 0
    ensures 0 <= hi < v ==> r == hi
    ensures hi < 0 ==> r == hi
  {
    Min(Max(0, v), hi)
  }

  /** One axis of the scaled transform: truncate `v * scale`, clamp to `[0, int(dim * scale) - 1]`. */
  function ScaleAxis(v: int, dim: int, scale: real): (r: int)
    ensures Trunc(dim as real * scale) >= 1 ==> 0 <= r < Trunc(dim as real * scale)
    ensures 0 <= Trunc(v as real * scale) < Trunc(dim as real * scale) ==> r == Trunc(v as real * scale)
    ensures Trunc(dim as real * scale) >= 1 && Trunc(v as real * scale) < 0 ==> r == 0
    ensures Trunc(v as real * scale) >= Trunc(dim as real * scale) >= 1 ==> r == Trunc(dim as real * scale) - 1
    ensures Trunc(dim as real * scale) < 1 ==> r == Trunc(dim as real * scale) - 1
  {
    ClampAxis(Trunc(v as real * scale), Trunc(dim as real * scale) - 1)
  }

  /**
   * `transform_coordinates`: the point unchanged when no capture size is known
   * or the scale is exactly 1.0, otherwise each axis scaled and clamped.
   */
  function Transform(original: Option<Size>, scale: real, p: Point): (q: Point)
    ensures original.None? || scale == 1.0 ==> q == p
    ensures original.Some? && scale != 1.0 ==>
      q == Point(ScaleAxis(p.x, original.value.width, scale), ScaleAxis(p.y, original.value.height, scale))
  {
    match original
    case Some(size) =>
      if scale != 1.0 then
        Point(ScaleAxis(p.x, size.width, scale), ScaleAxis(p.y, size.height, scale))
      else p
    case None => p
  }

  /**
   * The pre-clamp in `execute_action`: only when `x > width` or `y > height`
   * (strictly) are both axes clamped from above to `dim - 1`; there is no lower bound.
   */
  function PreClamp(screen: Size, p: Point): (q: Point)
    ensures q.x <= p.x && q.y <= p.y
    ensures p.x <= screen.width && p.y <= screen.height ==> q == p
    ensures p.x > screen.width || p.y > screen.height ==>
      q.x <= screen.width - 1 && q.y <= screen.height - 1
      && (q.x == p.x || q.x == screen.width - 1)
      && (q.y == p.y || q.y == screen.height - 1)
  {
    if p.x > screen.width || p.y > screen.height then
      Point(Min(p.x, screen.width - 1), Min(p.y, screen.height - 1))
    else p
  }

  /** Whether a point lies in `[0, int(dim * scale) - 1]` on both axes. */
  predicate InScaledBounds(size: Size, scale: real, q: Point) {
    && 0 <= q.x < Trunc(size.width as real * scale)
    && 0 <= q.y < Trunc(size.height as real * scale)
  }

  /**
   * Whenever the scaled screen has at least one pixel on each axis, the
   * transform lands inside it, for any input point at all (negative or
   * oversized included), and with scale 1.0 it is the identity.
   */
  lemma TransformInBounds(size: Size, scale: real, p: Point)
    requires scale != 1.0
    requires Trunc(size.width as real * scale) >= 1 && Trunc(size.height as real * scale) >= 1
    ensures InScaledBounds(size, scale, Transform(Some(size), scale, p))
  {
  }

  /** A coordinate equal to the screen dimension is not clamped by the strict comparison. */
  lemma PreClampPassesEdge(screen: Size)
    ensures PreClamp(screen, Point(screen.width, screen.height)) == Point(screen.width, screen.height)
  {
  }

  /** Halving a 1000x1000 capture maps (50, 50) to (25, 25). */
  lemma HalfScaleExample()
    ensures Transform(Some(Size(1000, 1000)), 0.5, Point(50, 50)) == Point(25, 25)
  {
    assert Trunc(50 as real * 0.5) == 25;
    assert Trunc(1000 as real * 0.5) == 500;
  }
}

=== FILE: corrector.dfy ===
/**
 * The click corrector: `is_background_color` and `find_nearest_clickable`.
 * A live screenshot is a row-major grid of RGB pixels; a point that lands on
 * near-white background is moved to the closest (Manhattan) non-background
 * pixel within a square of the given radius.
 */
module ClickCorrector {

  import opened Wrappers
  import opened Coordinates

  datatype Rgb = Rgb(r: int, g: int, b: int)

  /** A channel value above this counts as background brightness. */
  const BackgroundThreshold: int := 240

  /** Default half-width of the search square. */
  const SearchRadius: int := 20

  /** Every channel strictly brighter than the threshold. */
  predicate IsBackground(c: Rgb) {
    c.r > BackgroundThreshold && c.g > BackgroundThreshold && c.b > BackgroundThreshold
  }

  /** The channels of a pixel, in tuple order. */
  function Channels(c: Rgb): seq<int> {
    [c.r, c.g, c.b]
  }

  /**
   * `all(c > 240 for c in color)`: a pixel is background exactly when every
   * channel of its tuple is above the threshold; the comparison is strict,
   * so a channel of exactly 240 already makes it clickable.
   */
  lemma BackgroundAllChannels(c: Rgb)
    ensures IsBackground(c) <==> forall i :: 0 <= i < |Channels(c)| ==> Channels(c)[i] > BackgroundThreshold
    ensures IsBackground(Rgb(255, 255, 255)) && !IsBackground(Rgb(255, 255, 240))
  {
    assert Channels(c)[0] == c.r && Channels(c)[1] == c.g && Channels(c)[2] == c.b;
  }

  datatype Image = Image(width: nat, height: nat, rows: seq<seq<Rgb>>)

  /** A screenshot: `height` rows of `width` pixels each. */
  type Screen = img: Image | |img.rows| == img.height && forall y :: 0 <= y < |img.rows| ==> |img.rows[y]| == img.width
    witness Image(0, 0, [])

  predicate InBounds(s: Screen, x: int, y: int) {
    0 <= x < s.width && 0 <= y < s.height
  }

  function At(s: Screen, x: int, y: int): Rgb
    requires InBounds(s, x, y)
  {
    s.rows[y][x]
  }

  /**
   * `getpixel((x, y))` of the imaging library: a negative index counts once
   * from the far edge; anything still outside the image raises, which the
   * model reports as `None`.
   */
  function Sample(s: Screen, p: Point): (c: Option<Rgb>)
    ensures InBounds(s, p.x, p.y) ==> c == Some(At(s, p.x, p.y))
    ensures c.None? <==> !(-(s.width as int) <= p.x < s.width && -(s.height as int) <= p.y < s.height)
    ensures c.Some? ==>
      c.value == At(s, if p.x < 0 then s.width + p.x else p.x, if p.y < 0 then s.height + p.y else p.y)
  {
    var x := if p.x < 0 then s.width + p.x else p.x;
    var y := if p.y < 0 then s.height + p.y else p.y;
    if InBounds(s, x, y) then Some(At(s, x, y)) else None
  }

  /** An offset from the requested point, as the scan's `(dx, dy)`. */
  datatype Offset = Offset(dx: int, dy: int)

  function Abs(v: int): nat {
    if v < 0 then -v else v
  }

  /** Manhattan length of an offset. */
  function Dist(o: Offset): nat {
    Abs(o.dx) + Abs(o.dy)
  }

  function Shift(x: int, y: int, o: Offset): Point {
    Point(x + o.dx, y + o.dy)
  }

  /** An offset inside the search square whose pixel is on screen and not background. */
  predicate IsCandidate(s: Screen, x: int, y: int, radius: int, o: Offset) {
    && -radius <= o.dx <= radius
    && -radius <= o.dy <= radius
    && InBounds(s, x + o.dx, y + o.dy)
    && !IsBackground(At(s, x + o.dx, y + o.dy))
  }

  /** The scan order: `dx` outer, `dy` inner, both ascending. */
  predicate Precedes(a: Offset, b: Offset) {
    a.dx < b.dx || (a.dx == b.dx && a.dy < b.dy)
  }

  /**
   * The offset the search should report: a candidate of least Manhattan
   * distance that is strictly closer than every candidate scanned before it.
   */
  ghost predicate FirstNearest(s: Screen, x: int, y: int, radius: int, o: Offset) {
    && IsCandidate(s, x, y, radius, o)
    && (forall c :: IsCandidate(s, x, y, radius, c) ==> Dist(o) <= Dist(c))
    && (forall c :: IsCandidate(s, x, y, radius, c) && Precedes(c, o) ==> Dist(o) < Dist(c))
  }

  ghost predicate NoCandidate(s: Screen, x: int, y: int, radius: int) {
    forall c :: !IsCandidate(s, x, y, radius, c)
  }

  /** What the scan keeps after visiting every offset before `cursor`. */
  ghost predicate ScannedBest(s: Screen, x: int, y: int, radius: int, cursor: Offset, best: Option<Offset>) {
    && (best.None? ==> forall c :: IsCandidate(s, x, y, radius, c) ==> !Precedes(c, cursor))
    && (best.Some? ==>
          && IsCandidate(s, x, y, radius, best.value)
          && Precedes(best.value, cursor)
          && (forall c :: IsCandidate(s, x, y, radius, c) && Precedes(c, cursor) ==>
                Dist(best.value) <= Dist(c) && (Precedes(c, best.value) ==> Dist(best.value) < Dist(c))))
  }

  /** One inner-loop iteration: keep the pixel when it is usable and strictly closer. */
  function Visit(s: Screen, x: int, y: int, o: Offset, best: Option<Offset>): Option<Offset> {
    if InBounds(s, x + o.dx, y + o.dy) && !IsBackground(At(s, x + o.dx, y + o.dy))
       && (best.None? || Dist(o) < Dist(best.value))
    then Some(o)
    else best
  }

  function ScanColumn(s: Screen, x: int, y: int, radius: int, dx: int, dy: int, best: Option<Offset>): Option<Offset>
    decreases radius + 1 - dy
  {
    if dy > radius then best
    else ScanColumn(s, x, y, radius, dx, dy + 1, Visit(s, x, y, Offset(dx, dy), best))
  }

  function ScanColumns(s: Screen, x: int, y: int, radius: int, dx: int, best: Option<Offset>): Option<Offset>
    decreases radius + 1 - dx
  {
    if dx > radius then best
    else ScanColumns(s, x, y, radius, dx + 1, ScanColumn(s, x, y, radius, dx, -radius, best))
  }

  /**
   * The offset the scan settles on: nothing exactly when no on-screen
   * non-background pixel lies within the square, otherwise the first nearest one.
   */
  function NearestOffset(s: Screen, x: int, y: int, radius: int): Option<Offset> {
    ScanColumns(s, x, y, radius, -radius, None)
  }

  lemma NearestOffsetSpec(s: Screen, x: int, y: int, radius: int)
    ensures NearestOffset(s, x, y, radius).None? <==> NoCandidate(s, x, y, radius)
    ensures NearestOffset(s, x, y, radius).Some? ==> FirstNearest(s, x, y, radius, NearestOffset(s, x, y, radius).value)
  {
    ScanStart(s, x, y, radius);
    ScanColumnsSpec(s, x, y, radius, -radius, None);
    ScanEnd(s, x, y, radius, if -radius > radius then -radius else radius + 1, NearestOffset(s, x, y, radius));
  }

  /**
   * `find_nearest_clickable` as a function: a reported point is on screen,
   * not background and within the radius on each axis; there is none exactly
   * when the square holds no such pixel.
   */
  function FindNearest(s: Screen, x: int, y: int, radius: int): (p: Option<Point>)
    ensures p.None? <==> NoCandidate(s, x, y, radius)
    ensures p.Some? ==>
      && InBounds(s, p.value.x, p.value.y) && !IsBackground(At(s, p.value.x, p.value.y))
      && x - radius <= p.value.x <= x + radius && y - radius <= p.value.y <= y + radius
    ensures p.Some? ==> exists o :: FirstNearest(s, x, y, radius, o) && p.value == Shift(x, y, o)
  {
    NearestOffsetSpec(s, x, y, radius);
    match NearestOffset(s, x, y, radius)
    case None => None
    case Some(o) => Some(Shift(x, y, o))
  }

  lemma ScanStart(s: Screen, x: int, y: int, radius: int)
    ensures ScannedBest(s, x, y, radius, Offset(-radius, -radius), None)
  {
  }

  lemma VisitStep(s: Screen, x: int, y: int, radius: int, dx: int, dy: int, best: Option<Offset>)
    requires -radius <= dx <= radius && -radius <= dy <= radius
    requires ScannedBest(s, x, y, radius, Offset(dx, dy), best)
    ensures ScannedBest(s, x, y, radius, Offset(dx, dy + 1), Visit(s, x, y, Offset(dx, dy), best))
  {
    var o := Offset(dx, dy);
    var next := Visit(s, x, y, o, best);
    forall c | IsCandidate(s, x, y, radius, c) && Precedes(c, Offset(dx, dy + 1)) && c != o
      ensures Precedes(c, o)
    {
    }
    if next != best {
      assert next == Some(o);
      assert IsCandidate(s, x, y, radius, o);
    }
  }

  lemma ColumnWrap(s: Screen, x: int, y: int, radius: int, dx: int, best: Option<Offset>)
    requires ScannedBest(s, x, y, radius, Offset(dx, radius + 1), best)
    ensures ScannedBest(s, x, y, radius, Offset(dx + 1, -radius), best)
  {
  }

  lemma ScanEnd(s: Screen, x: int, y: int, radius: int, dx: int, best: Option<Offset>)
    requires dx > radius
    requires ScannedBest(s, x, y, radius, Offset(dx, -radius), best)
    ensures best.None? <==> NoCandidate(s, x, y, radius)
    ensures best.Some? ==> FirstNearest(s, x, y, radius, best.value)
  {
    if best.Some? {
      assert !NoCandidate(s, x, y, radius) by {
        assert IsCandidate(s, x, y, radius, best.value);
      }
    }
  }

  lemma {:induction false} ScanColumnSpec(s: Screen, x: int, y: int, radius: int, dx: int, dy: int, best: Option<Offset>)
    requires -radius <= dx <= radius && -radius <= dy <= radius + 1
    requires ScannedBest(s, x, y, radius, Offset(dx, dy), best)
    ensures ScannedBest(s, x, y, radius, Offset(dx, radius + 1), ScanColumn(s, x, y, radius, dx, dy, best))
    decreases radius + 1 - dy
  {
    if dy <= radius {
      VisitStep(s, x, y, radius, dx, dy, best);
      ScanColumnSpec(s, x, y, radius, dx, dy + 1, Visit(s, x, y, Offset(dx, dy), best));
    }
  }

  lemma {:induction false} ScanColumnsSpec(s: Screen, x: int, y: int, radius: int, dx: int, best: Option<Offset>)
    requires -radius <= dx
    requires ScannedBest(s, x, y, radius, Offset(dx, -radius), best)
    ensures ScannedBest(s, x, y, radius, Offset(if dx > radius then dx else radius + 1, -radius),
                        ScanColumns(s, x, y, radius, dx, best))
    decreases radius + 1 - dx
  {
    if dx <= radius {
      ScanColumnSpec(s, x, y, radius, dx, -radius, best);
      ColumnWrap(s, x, y, radius, dx, ScanColumn(s, x, y, radius, dx, -radius, best));
      ScanColumnsSpec(s, x, y, radius, dx + 1, ScanColumn(s, x, y, radius, dx, -radius, best));
    }
  }

  /** At most one offset can be the first nearest candidate. */
  lemma FirstNearestUnique(s: Screen, x: int, y: int, radius: int, a: Offset, b: Offset)
    requires FirstNearest(s, x, y, radius, a) && FirstNearest(s, x, y, radius, b)
    ensures a == b
  {
    assert Dist(a) <= Dist(b) && Dist(b) <= Dist(a);
    assert !Precedes(a, b) && !Precedes(b, a);
  }

  /** When the centre itself is usable, it is the only first nearest offset. */
  lemma CentreIsFirst(s: Screen, x: int, y: int, radius: int, o: Offset)
    requires IsCandidate(s, x, y, radius, Offset(0, 0))
    requires FirstNearest(s, x, y, radius, o)
    ensures o == Offset(0, 0)
  {
    assert Dist(o) <= Dist(Offset(0, 0)) == 0;
    assert Abs(o.dx) == 0 && Abs(o.dy) == 0;
  }

  /** A usable centre pixel is the scan's answer: distance 0 is unbeatable and nothing ties it first. */
  lemma CentreOffset(s: Screen, x: int, y: int, radius: int)
    requires radius >= 0
    requires InBounds(s, x, y) && !IsBackground(At(s, x, y))
    ensures NearestOffset(s, x, y, radius) == Some(Offset(0, 0))
  {
    assert IsCandidate(s, x, y, radius, Offset(0, 0));
    NearestOffsetSpec(s, x, y, radius);
    CentreIsFirst(s, x, y, radius, NearestOffset(s, x, y, radius).value);
  }

  /** A usable centre pixel is returned unchanged. */
  lemma CentreKept(s: Screen, x: int, y: int, radius: int)
    requires radius >= 0
    requires InBounds(s, x, y) && !IsBackground(At(s, x, y))
    ensures FindNearest(s, x, y, radius) == Some(Point(x, y))
  {
    CentreOffset(s, x, y, radius);
  }

  /** The position the loop keeps for a kept offset. */
  function PointOf(x: int, y: int, found: Option<Offset>): Option<Point> {
    match found
    case None => None
    case Some(o) => Some(Shift(x, y, o))
  }

  /** The `min_diff` the loop keeps for a kept offset. */
  function DistOf(found: Option<Offset>): Option<nat> {
    match found
    case None => None
    case Some(o) => Some(Dist(o))
  }

  /**
   * `find_nearest_clickable`: the nested `dx`/`dy` scan over the square,
   * skipping off-screen points, replacing the best position only on a
   * strictly smaller Manhattan distance.
   */
  method FindNearestClickable(s: Screen, x: int, y: int, radius: int) returns (best: Option<Point>)
    ensures best.None? <==> NoCandidate(s, x, y, radius)
    ensures best.Some? ==> exists o :: FirstNearest(s, x, y, radius, o) && best.value == Shift(x, y, o)
    ensures best == FindNearest(s, x, y, radius)
  {
    var minDiff: Option<nat> := None;
    best := None;
    ghost var found: Option<Offset> := None;
    var dx := -radius;
    while dx <= radius
      invariant -radius <= dx && (radius < 0 || dx <= radius + 1)
      invariant best == PointOf(x, y, found)
      invariant minDiff == DistOf(found)
      invariant ScanColumns(s, x, y, radius, dx, found) == ScanColumns(s, x, y, radius, -radius, None)
      decreases radius + 1 - dx
    {
      ghost var columnStart := found;
      var dy := -radius;
      while dy <= radius
        invariant -radius <= dy <= radius + 1
        invariant best == PointOf(x, y, found)
        invariant minDiff == DistOf(found)
        invariant ScanColumn(s, x, y, radius, dx, dy, found) == ScanColumn(s, x, y, radius, dx, -radius, columnStart)
        decreases radius + 1 - dy
      {
        ghost var before := found;
        var nx, ny := x + dx, y + dy;
        if 0 <= nx < s.width && 0 <= ny < s.height {
          var color := s.rows[ny][nx];
          if !IsBackground(color) {
            var diff := Abs(dx) + Abs(dy);
            if minDiff.None? || diff < minDiff.value {
              minDiff := Some(diff);
              best := Some(Point(nx, ny));
              found := Some(Offset(dx, dy));
            }
          }
        }
        assert found == Visit(s, x, y, Offset(dx, dy), before);
        dy := dy + 1;
      }
      dx := dx + 1;
    }
    assert ScanColumns(s, x, y, radius, dx, found) == found;
    ScanAgrees(s, x, y, radius, found, best);
  }

  /** The loop's kept offset, once it is the scan's answer, makes the loop's point the functional answer. */
  lemma ScanAgrees(s: Screen, x: int, y: int, radius: int, found: Option<Offset>, best: Option<Point>)
    requires found == NearestOffset(s, x, y, radius)
    requires best == PointOf(x, y, found)
    ensures best == FindNearest(s, x, y, radius)
    ensures best.None? <==> NoCandidate(s, x, y, radius)
    ensures best.Some? ==> exists o :: FirstNearest(s, x, y, radius, o) && best.value == Shift(x, y, o)
  {
  }
}

=== FILE: decision.dfy ===
/**
 * Reply handling of `get_ai_decision`: a strict parse of the whole reply,
 * then a parse of the brace-delimited span the pattern `\{.*\}` (dot matching
 * newlines) finds, then schema validation. Every failure yields the fallback
 * decision; only a validated decision is appended to the action history.
 * The JSON decoder and Python's `str()` of a dict are parameters.
 */
module Decision {

  import opened Wrappers
  import opened JsonValue

  /** `json.loads`: `None` where it raises a decode error. */
  type Parser = string -> Option<Json>

  /** Python `str()` of a decoded value, as used in the history entry. */
  type Render = Json -> string

  /** No `}` anywhere after a `{`: the pattern has nothing to match. */
  predicate NoBracePair(s: string) {
    forall i, j :: 0 <= i < j < |s| && s[i] == '{' ==> s[j] != '}'
  }

  /**
   * The greedy `.*` followed by `\}`: starting with the whole rest of the
   * text, give back characters from the end until the span ends in `}`.
   * `e` is the exclusive end being tried; the span must keep its opening `{`.
   */
  function Backtrack(s: string, i: nat, e: nat): (r: Option<nat>)
    requires i < e <= |s|
    ensures r.Some? ==> i + 1 < r.value <= e && s[r.value - 1] == '}'
    ensures r.Some? ==> forall k :: r.value <= k < e ==> s[k] != '}'
    ensures r.None? ==> forall k :: i < k < e ==> s[k] != '}'
    decreases e
  {
    if e <= i + 1 then None
    else if s[e - 1] == '}' then Some(e)
    else Backtrack(s, i, e - 1)
  }

  /**
   * `re.search` from position `i`: the leftmost `{` from which the greedy
   * match succeeds, with the exclusive end of its span.
   */
  function SearchFrom(s: string, i: nat): (r: Option<(nat, nat)>)
    requires i <= |s|
    ensures r.Some? ==> i <= r.value.0 && r.value.0 + 1 < r.value.1 <= |s|
    ensures r.Some? ==> s[r.value.0] == '{' && s[r.value.1 - 1] == '}'
    ensures r.Some? ==> forall k :: i <= k < r.value.0 ==> s[k] != '{'
    ensures r.Some? ==> forall k :: r.value.1 <= k < |s| ==> s[k] != '}'
    ensures r.None? <==> forall p, q :: i <= p < q < |s| && s[p] == '{' ==> s[q] != '}'
    decreases |s| - i
  {
    if i == |s| then None
    else if s[i] == '{' then
      match Backtrack(s, i, |s|)
      case Some(e) => Some((i, e))
      case None => SearchFrom(s, i + 1)
    else SearchFrom(s, i + 1)
  }

  /** The text `\{.*\}` matches in the reply, if any. */
  function ExtractSpan(content: string): Option<string> {
    match SearchFrom(content, 0)
    case None => None
    case Some((a, e)) => Some(content[a..e])
  }

  /**
   * The span, when there is one, runs from the first `{` of the reply to its
   * last `}` inclusive; there is none exactly when no `}` follows a `{`.
   */
  lemma ExtractSpanFirstToLast(content: string)
    ensures ExtractSpan(content).None? <==> NoBracePair(content)
    ensures ExtractSpan(content).Some? ==>
      exists a, e :: 0 <= a < e <= |content| && ExtractSpan(content).value == content[a..e]
        && content[a] == '{' && (forall k :: 0 <= k < a ==> content[k] != '{')
        && content[e - 1] == '}' && (forall k :: e <= k < |content| ==> content[k] != '}')
  {
    match SearchFrom(content, 0)
    case None =>
    case Some((a, e)) =>
      assert ExtractSpan(content).value == content[a..e];
  }

  /** The two-stage parse: the whole reply, else the extracted span. */
  function ParseReply(content: string, parse: Parser): (r: Option<Json>)
    ensures parse(content).Some? ==> r == parse(content)
    ensures parse(content).None? && ExtractSpan(content).None? ==> r.None?
    ensures parse(content).None? && ExtractSpan(content).Some? ==> r == parse(ExtractSpan(content).value)
  {
    match parse(content)
    case Some(j) => Some(j)
    case None =>
      match ExtractSpan(content)
      case None => None
      case Some(span) => parse(span)
  }

  /** The action types the validation accepts. */
  const ActionTypes: seq<Json> :=
    [JStr("move"), JStr("click"), JStr("type"), JStr("press"), JStr("scroll"), JStr("none")]

  datatype Decision = Decision(action: Json, completed: bool)

  /** `({"type": "none"}, False)`: what every failure returns. */
  const Fallback: Decision := Decision(JObj(map["type" := JStr("none")]), false)

  /** Why validation refused a parsed reply, one case per check. */
  datatype Invalid = NotADict | MissingKeys | ActionNotTyped | BadActionType | CompletedNotBool

  datatype Checked = Valid(decision: Decision) | Refused(why: Invalid)

  /** The schema a reply must satisfy, stated on its own. */
  predicate WellFormedReply(j: Json) {
    && j.JObj?
    && "action" in j.fields && "completed" in j.fields
    && j.fields["action"].JObj? && "type" in j.fields["action"].fields
    && j.fields["action"].fields["type"] in ActionTypes
    && j.fields["completed"].JBool?
  }

  /** The checks of `get_ai_decision`, in the order the code raises them. */
  function Validate(j: Json): (c: Checked)
    ensures c.Valid? <==> WellFormedReply(j)
    ensures c.Valid? ==> c.decision == Decision(j.fields["action"], j.fields["completed"].b)
    ensures c.Refused? && c.why == NotADict <==> !j.JObj?
  {
    if !j.JObj? then Refused(NotADict)
    else if "action" !in j.fields || "completed" !in j.fields then Refused(MissingKeys)
    else if !j.fields["action"].JObj? || "type" !in j.fields["action"].fields then Refused(ActionNotTyped)
    else if j.fields["action"].fields["type"] !in ActionTypes then Refused(BadActionType)
    else if !j.fields["completed"].JBool? then Refused(CompletedNotBool)
    else Valid(Decision(j.fields["action"], j.fields["completed"].b))
  }

  /** The history line for an accepted action: `"<type>: <str(action)>"`. */
  function HistoryEntry(action: Json, render: Render): (r: string)
    requires action.JObj? && "type" in action.fields && action.fields["type"].JStr?
    ensures var k := action.fields["type"].s;
      && |r| == |k| + 2 + |render(action)|
      && r[..|k|] == k && r[|k|..|k| + 2] == ": " && r[|k| + 2..] == render(action)
  {
    var k := action.fields["type"].s;
    var r := k + ": " + render(action);
    assert r[|k|..|k| + 2] == ": " && r[|k| + 2..] == render(action);
    r
  }

  datatype Turn = Turn(decision: Decision, history: seq<string>)

  /**
   * `get_ai_decision` after the request: `reply` is the service's text, or
   * `None` when the request raised.
   */
  function GetDecision(reply: Option<string>, parse: Parser, render: Render, history: seq<string>): (t: Turn)
    ensures t.history == history || (|t.history| == |history| + 1 && t.history[..|history|] == history)
    ensures t.history != history ==>
      t.decision.action.JObj? && "type" in t.decision.action.fields && t.decision.action.fields["type"] in ActionTypes
  {
    match reply
    case None => Turn(Fallback, history)
    case Some(content) =>
      match ParseReply(content, parse)
      case None => Turn(Fallback, history)
      case Some(j) =>
        match Validate(j)
        case Refused(_) => Turn(Fallback, history)
        case Valid(d) => Turn(d, history + [HistoryEntry(d.action, render)])
  }

  /**
   * The decision is the fallback, with the history unchanged, unless the
   * parsed reply passes every check; a passing reply yields its own action
   * and flag and exactly one new history line.
   */
  lemma DecisionFallbackUnlessValid(reply: Option<string>, parse: Parser, render: Render, history: seq<string>)
    ensures var t := GetDecision(reply, parse, render, history);
      if reply.Some? && ParseReply(reply.value, parse).Some? && WellFormedReply(ParseReply(reply.value, parse).value)
      then
        var j := ParseReply(reply.value, parse).value;
        t == Turn(Decision(j.fields["action"], j.fields["completed"].b),
                  history + [HistoryEntry(j.fields["action"], render)])
      else t == Turn(Fallback, history)
  {
  }

  /** Without a `}` after a `{`, a reply the decoder rejects always gives the fallback. */
  lemma NoSpanFallback(content: string, parse: Parser, render: Render, history: seq<string>)
    requires parse(content).None? && NoBracePair(content)
    ensures GetDecision(Some(content), parse, render, history) == Turn(Fallback, history)
  {
    ExtractSpanFirstToLast(content);
  }

  /** A parsed reply without the `completed` key is refused. */
  lemma MissingCompletedRefused(content: string, parse: Parser, render: Render, history: seq<string>)
    requires parse(content).Some? && parse(content).value.JObj?
    requires "completed" !in parse(content).value.fields
    ensures GetDecision(Some(content), parse, render, history) == Turn(Fallback, history)
  {
  }

  /** Prose without braces around an object: the span is exactly that object, inner braces included. */
  lemma EmbeddedObjectExtracted(obj: string)
    requires |obj| >= 2 && obj[0] == '{' && obj[|obj| - 1] == '}'
    ensures ExtractSpan("Sure! " + obj + " Done.") == Some(obj)
  {
    var pre, post := "Sure! ", " Done.";
    var s := pre + obj + post;
    var e := |pre| + |obj|;
    assert s[6] == '{' && s[e - 1] == '}';
    assert forall k :: 0 <= k < 6 ==> s[k] == pre[k];
    assert forall k :: e <= k < |s| ==> s[k] == post[k - e];
    assert SearchFrom(s, 0) == Some((6, e));
    assert s[6..e] == obj;
  }
}

=== FILE: executor.dfy ===
/**
 * `execute_action`: dispatch of one decided action to pointer and keyboard
 * injection, gated by the input-mode state machine. Injection calls become
 * `Effect` events in an output trace; the clock is the `now` parameter; an
 * exception raised by an injection call is the `fault` parameter.
 */
module Executor {

  import opened Wrappers
  import opened JsonValue
  import opened Coordinates
  import opened ClickCorrector

  /** Seconds after the focusing click beyond which typing re-clicks first. */
  const FocusTimeout: int := 5

  /** Where and when the last click landed (`last_input_x`, `last_input_y`, `last_input_time`, always set together). */
  datatype Focus = Focus(x: int, y: int, time: int)

  datatype InputState = InputState(inputMode: bool, last: Option<Focus>)

  /** The state before any action: not in input mode, no focus recorded. */
  const Initial: InputState := InputState(false, None)

  /** Reachable states never claim input mode without a recorded focus. */
  predicate Wf(s: InputState) {
    s.inputMode ==> s.last.Some?
  }

  /** One injection call, in the order it reaches the OS. */
  datatype Effect =
    | MoveTo(x: int, y: int)
    | Click(x: int, y: int)
    | TypeWrite(text: Json)
    | Press(key: Json)
    | Scroll(amount: Json)

  datatype FaultKind = FailSafe | OtherError

  /** Which injection call, counted from 0, raises, if any. */
  datatype Fault = NoFault | FailAt(call: nat, kind: FaultKind)

  /** How the call ended, as far as the log can tell. */
  datatype Outcome =
    | Done             // every injection call ran (also the `none` action)
    | Ignored          // not a dict, no truthy `type`, unknown type, or typing outside input mode
    | ParamError       // a field the action type needs is missing
    | FailSafeTripped  // the injection layer's fail-safe fired; only logged
    | Crashed          // any other exception; input mode is dropped

  datatype Step = Step(state: InputState, effects: seq<Effect>, outcome: Outcome)

  /** Everything outside the action that pointer handling reads. */
  datatype Env = Env(screenSize: Size, shot: Screen, original: Option<Size>, scale: real)

  /** The action as dispatched, after the type and required-field checks. */
  datatype Action =
    | NotAMapping
    | Untyped
    | Pointer(click: bool, x: Json, y: Json)
    | TypeText(text: Json)
    | KeyPress(key: Json)
    | ScrollBy(amount: Json)
    | NoAction
    | Unknown
    | MissingField

  /** The keys that leave input mode. */
  const BreakKeys: seq<Json> := [JStr("enter"), JStr("escape"), JStr("tab")]

  /** The fields each known action type needs (independent of the dispatch code). */
  function Required(kind: string): set<string> {
    if kind == "move" || kind == "click" then {"x", "y"}
    else if kind == "type" then {"text"}
    else if kind == "press" then {"key"}
    else if kind == "scroll" then {"amount"}
    else {}
  }

  predicate KnownKind(kind: string) {
    kind in {"move", "click", "type", "press", "scroll", "none"}
  }

  /** The truthy `type` string of a dict action, if it has one. */
  function KindOf(a: Json): Option<string> {
    if a.JObj? && "type" in a.fields && a.fields["type"].JStr? && |a.fields["type"].s| > 0
    then Some(a.fields["type"].s)
    else None
  }

  /** The dispatch checks of `execute_action`, in the order the code makes them. */
  function Classify(a: Json): (act: Action)
    ensures act.NotAMapping? <==> !a.JObj?
    ensures act.Untyped? <==> a.JObj? && !("type" in a.fields && Truthy(a.fields["type"]))
    ensures act.MissingField? <==>
      KindOf(a).Some? && KnownKind(KindOf(a).value) && !(Required(KindOf(a).value) <= a.fields.Keys)
    ensures act.Unknown? <==>
      a.JObj? && "type" in a.fields && Truthy(a.fields["type"]) && (KindOf(a).None? || !KnownKind(KindOf(a).value))
    ensures act.Pointer? ==>
      KindOf(a) == Some(if act.click then "click" else "move") && act.x == a.fields["x"] && act.y == a.fields["y"]
    ensures act.TypeText? ==> KindOf(a) == Some("type") && act.text == a.fields["text"]
    ensures act.KeyPress? ==> KindOf(a) == Some("press") && act.key == a.fields["key"]
    ensures act.ScrollBy? ==> KindOf(a) == Some("scroll") && act.amount == a.fields["amount"]
    ensures act.NoAction? <==> KindOf(a) == Some("none")
  {
    if !a.JObj? then NotAMapping
    else
      var f := a.fields;
      if "type" !in f || !Truthy(f["type"]) then Untyped
      else
        var t := f["type"];
        if t == JStr("move") || t == JStr("click") then
          if "x" !in f || "y" !in f then MissingField else Pointer(t == JStr("click"), f["x"], f["y"])
        else if t == JStr("type") then
          if "text" !in f then MissingField else TypeText(f["text"])
        else if t == JStr("press") then
          if "key" !in f then MissingField else KeyPress(f["key"])
        else if t == JStr("scroll") then
          if "amount" !in f then MissingField else ScrollBy(f["amount"])
        else if t == JStr("none") then NoAction
        else Unknown
  }

  /**
   * Both coordinates as numbers; `None` when either is not, in which case
   * the bounds comparison raises a TypeError before any injection call.
   */
  function Coords(x: Json, y: Json): (p: Option<Point>)
    ensures p.Some? <==> AsNumber(x).Some? && AsNumber(y).Some?
    ensures p.Some? ==> p.value == Point(AsNumber(x).value, AsNumber(y).value)
  {
    match (AsNumber(x), AsNumber(y))
    case (Some(px), Some(py)) => Some(Point(px, py))
    case _ => None
  }

  /**
   * The physical point of a move/click: pre-clamp, scale transform, then the
   * click corrector when the sampled pixel is background. `None` when sampling
   * the pixel raises.
   */
  function Target(env: Env, p: Point): (q: Option<Point>)
    ensures var t := Transform(env.original, env.scale, PreClamp(env.screenSize, p));
      && (q.None? <==> Sample(env.shot, t).None?)
      && (q.Some? && !IsBackground(Sample(env.shot, t).value) ==> q.value == t)
      && (q.Some? && q.value != t ==>
            InBounds(env.shot, q.value.x, q.value.y) && !IsBackground(At(env.shot, q.value.x, q.value.y)))
      && (q.Some? && IsBackground(Sample(env.shot, t).value) && NoCandidate(env.shot, t.x, t.y, SearchRadius) ==>
            q.value == t)
      && (q.Some? && IsBackground(Sample(env.shot, t).value) && !NoCandidate(env.shot, t.x, t.y, SearchRadius) ==>
            exists o :: FirstNearest(env.shot, t.x, t.y, SearchRadius, o) && q.value == Shift(t.x, t.y, o))
  {
    var t := Transform(env.original, env.scale, PreClamp(env.screenSize, p));
    match Sample(env.shot, t)
    case None => None
    case Some(c) =>
      if IsBackground(c) then
        match FindNearest(env.shot, t.x, t.y, SearchRadius)
        case Some(adjusted) => Some(adjusted)
        case None => Some(t)
      else Some(t)
  }

  /** The exception handler for anything but a fail-safe trip or a ValueError. */
  function Crash(s: InputState): Step {
    Step(s.(inputMode := false), [], Crashed)
  }

  /**
   * Run the injection calls in order; the state update that follows them is
   * made only when none raises. A raise keeps the calls made before it.
   */
  function Inject(s: InputState, calls: seq<Effect>, next: InputState, fault: Fault): (r: Step)
    ensures r.effects <= calls
    ensures r.outcome == Done <==> !(fault.FailAt? && fault.call < |calls|)
    ensures r.outcome == Done ==> r.effects == calls && r.state == next
    ensures fault.FailAt? && fault.call < |calls| ==>
      r.effects == calls[..fault.call] && r.outcome == (if fault.kind == FailSafe then FailSafeTripped else Crashed)
    ensures r.outcome == FailSafeTripped ==> r.state == s
    ensures r.outcome == Crashed ==> r.state == s.(inputMode := false)
    ensures r.outcome in {Done, FailSafeTripped, Crashed}
  {
    if fault.FailAt? && fault.call < |calls| then
      Step(if fault.kind == FailSafe then s else s.(inputMode := false), calls[..fault.call],
           if fault.kind == FailSafe then FailSafeTripped else Crashed)
    else Step(next, calls, Done)
  }

  /** The move/click branch: the click additionally enters input mode focused on the final point. */
  function ExecutePointer(s: InputState, env: Env, click: bool, x: Json, y: Json, now: int, fault: Fault): Step {
    match Coords(x, y)
    case None => Crash(s)
    case Some(p) =>
      match Target(env, p)
      case None => Crash(s)
      case Some(q) =>
        if click then Inject(s, [Click(q.x, q.y)], InputState(true, Some(Focus(q.x, q.y, now))), fault)
        else Inject(s, [MoveTo(q.x, q.y)], s, fault)
  }

  /** The type branch: dropped outside input mode; a stale focus is clicked again first, without refreshing its time. */
  function ExecuteType(s: InputState, text: Json, now: int, fault: Fault): Step {
    if !s.inputMode then Step(s, [], Ignored)
    else
      match s.last
      case None => Crash(s)
      case Some(f) =>
        if now - f.time > FocusTimeout then Inject(s, [Click(f.x, f.y), TypeWrite(text)], s, fault)
        else Inject(s, [TypeWrite(text)], s, fault)
  }

  /** `execute_action` on input state `s` at time `now`. */
  function Execute(s: InputState, env: Env, action: Json, now: int, fault: Fault): (r: Step)
    ensures Wf(s) ==> Wf(r.state)
    ensures r.outcome in {Ignored, ParamError, FailSafeTripped} ==> r.state == s
    ensures r.outcome in {Ignored, ParamError} ==> r.effects == []
    ensures r.outcome == Crashed ==> r.state == s.(inputMode := false)
    ensures r.outcome == FailSafeTripped ==> fault.FailAt? && fault.kind == FailSafe
    ensures r.state.last != s.last ==> r.state.inputMode && r.state.last.Some? && r.state.last.value.time == now
  {
    match Classify(action)
    case NotAMapping => Step(s, [], Ignored)
    case Untyped => Step(s, [], Ignored)
    case MissingField => Step(s, [], ParamError)
    case Unknown => Step(s, [], Ignored)
    case NoAction => Step(s, [], Done)
    case Pointer(click, x, y) => ExecutePointer(s, env, click, x, y, now, fault)
    case TypeText(text) => ExecuteType(s, text, now, fault)
    case KeyPress(key) =>
      Inject(s, [Press(key)], if key in BreakKeys then s.(inputMode := false) else s, fault)
    case ScrollBy(amount) =>
      Inject(s, [Scroll(amount)], s, fault)
  }

  /** A click that runs enters input mode focused on the point clicked (after correction), stamped `now`. */
  lemma ClickEntersInputMode(s: InputState, env: Env, action: Json, now: int, fault: Fault)
    requires Classify(action).Pointer? && Classify(action).click
    requires Execute(s, env, action, now, fault).outcome == Done
    ensures var r := Execute(s, env, action, now, fault);
      && |r.effects| == 1 && r.effects[0].Click?
      && r.state == InputState(true, Some(Focus(r.effects[0].x, r.effects[0].y, now)))
  {
  }

  /** Enter, escape or tab leaves input mode whatever the prior state; the focus record stays. */
  lemma BreakKeyLeavesInputMode(s: InputState, env: Env, action: Json, now: int, fault: Fault)
    requires Classify(action).KeyPress? && Classify(action).key in BreakKeys
    requires Execute(s, env, action, now, fault).outcome == Done
    ensures Execute(s, env, action, now, fault).state == InputState(false, s.last)
    ensures Execute(s, env, action, now, fault).effects == [Press(Classify(action).key)]
  {
  }

  /** Move, scroll, `none`, other keys and typing never change the input state when they run; `none` injects nothing. */
  lemma OtherActionsKeepState(s: InputState, env: Env, action: Json, now: int, fault: Fault)
    requires
      || (Classify(action).Pointer? && !Classify(action).click)
      || Classify(action).ScrollBy?
      || Classify(action).NoAction?
      || Classify(action).TypeText?
      || (Classify(action).KeyPress? && Classify(action).key !in BreakKeys)
    requires Execute(s, env, action, now, fault).outcome == Done
    ensures Execute(s, env, action, now, fault).state == s
    ensures Classify(action).NoAction? ==> Execute(s, env, action, now, fault).effects == []
  {
  }

  /** Typing outside input mode is dropped: no effect, no state change, for any text. */
  lemma TypeOutsideInputModeDropped(s: InputState, env: Env, action: Json, now: int, fault: Fault)
    requires Classify(action).TypeText? && !s.inputMode
    ensures Execute(s, env, action, now, fault) == Step(s, [], Ignored)
  {
  }

  /**
   * With a focus older than the timeout, typing clicks the stored focus
   * first and then types; the focus time is not refreshed. A fresh focus
   * types directly.
   */
  lemma TypeRefocusesWhenStale(s: InputState, env: Env, action: Json, now: int, f: Focus)
    requires Classify(action).TypeText? && s.inputMode && s.last == Some(f)
    ensures now - f.time > FocusTimeout ==>
      Execute(s, env, action, now, NoFault) == Step(s, [Click(f.x, f.y), TypeWrite(Classify(action).text)], Done)
    ensures now - f.time <= FocusTimeout ==>
      Execute(s, env, action, now, NoFault) == Step(s, [TypeWrite(Classify(action).text)], Done)
  {
  }

  /**
   * A raise from the first injection call of a press, a scroll, or a move or
   * click that reached its target: a fail-safe trip leaves the state exactly
   * as it was, any other error drops input mode, and nothing was injected.
   */
  lemma FirstCallRaises(s: InputState, env: Env, action: Json, now: int, kind: FaultKind)
    requires
      || Classify(action).KeyPress?
      || Classify(action).ScrollBy?
      || (Classify(action).Pointer?
          && Coords(Classify(action).x, Classify(action).y).Some?
          && Target(env, Coords(Classify(action).x, Classify(action).y).value).Some?)
    ensures var r := Execute(s, env, action, now, FailAt(0, kind));
      && r.effects == []
      && (kind == FailSafe ==> r == Step(s, [], FailSafeTripped))
      && (kind == OtherError ==> r == Step(s.(inputMode := false), [], Crashed))
  {
  }

  /**
   * What a pointer, press or scroll action injects when its one call does
   * not raise: a move or click at the target point (pre-clamped, scaled,
   * then corrected), the key, or the amount, passed on unchanged. A pointer
   * action whose coordinates are not numbers, or whose target pixel cannot
   * be read, raises before injecting anything.
   */
  lemma AcceptedActionsInject(s: InputState, env: Env, action: Json, now: int, fault: Fault)
    requires !(fault.FailAt? && fault.call == 0)
    ensures var r := Execute(s, env, action, now, fault);
      var act := Classify(action);
      && (act.Pointer? && Coords(act.x, act.y).Some? && Target(env, Coords(act.x, act.y).value).Some? ==>
            var q := Target(env, Coords(act.x, act.y).value).value;
            r.outcome == Done && r.effects == [if act.click then Click(q.x, q.y) else MoveTo(q.x, q.y)])
      && (act.Pointer? && (Coords(act.x, act.y).None? || Target(env, Coords(act.x, act.y).value).None?) ==>
            r == Step(s.(inputMode := false), [], Crashed))
      && (act.ScrollBy? ==> r.outcome == Done && r.effects == [Scroll(act.amount)])
      && (act.KeyPress? ==> r.outcome == Done && r.effects == [Press(act.key)])
  {
  }

  /** A non-dict, an untyped action, a missing field or an unknown type emits nothing and changes nothing. */
  lemma RejectedActionsInert(s: InputState, env: Env, action: Json, now: int, fault: Fault)
    requires Classify(action) in {NotAMapping, Untyped, MissingField, Unknown}
    ensures Execute(s, env, action, now, fault).effects == []
    ensures Execute(s, env, action, now, fault).state == s
  {
  }

  /** Starting from the initial state, every state the executor reaches is well formed. */
  lemma {:induction false} ReachableWf(s: InputState, env: Env, actions: seq<Json>, times: seq<int>, faults: seq<Fault>)
    requires Wf(s)
    requires |times| == |actions| && |faults| == |actions|
    ensures Wf(Replay(s, env, actions, times, faults))
    decreases |actions|
  {
    if |actions| > 0 {
      ReachableWf(Execute(s, env, actions[0], times[0], faults[0]).state, env, actions[1..], times[1..], faults[1..]);
    }
  }

  /** The input state after executing a sequence of actions. */
  function Replay(s: InputState, env: Env, actions: seq<Json>, times: seq<int>, faults: seq<Fault>): InputState
    requires |times| == |actions| && |faults| == |actions|
    decreases |actions|
  {
    if |actions| == 0 then s
    else Replay(Execute(s, env, actions[0], times[0], faults[0]).state, env, actions[1..], times[1..], faults[1..])
  }

  /**
   * A click at (50, 50) with capture scale 0.5 on a 1000x1000 screen lands on
   * (25, 25) when that pixel is not background, and focuses it.
   */
  lemma HalfScaleClickExample(shot: Screen, s: InputState, now: int)
    requires InBounds(shot, 25, 25) && !IsBackground(At(shot, 25, 25))
    ensures var env := Env(Size(1000, 1000), shot, Some(Size(1000, 1000)), 0.5);
      var action := JObj(map["type" := JStr("click"), "x" := JNum(50), "y" := JNum(50)]);
      Execute(s, env, action, now, NoFault) == Step(InputState(true, Some(Focus(25, 25, now))), [Click(25, 25)], Done)
  {
    var env := Env(Size(1000, 1000), shot, Some(Size(1000, 1000)), 0.5);
    var action := JObj(map["type" := JStr("click"), "x" := JNum(50), "y" := JNum(50)]);
    assert Classify(action) == Pointer(true, JNum(50), JNum(50));
    HalfScaleExample();
    assert Target(env, Point(50, 50)) == Some(Point(25, 25));
  }
}

=== FILE: json.dfy ===
/**
 * Decoded JSON values, as the reply parser hands them back: Python dicts,
 * lists, strings, integers, booleans and `None`. Objects are maps because a
 * decoded dict keeps the last value given for a repeated key.
 */
module JsonValue {

  import opened Wrappers

  datatype Json =
    | JNull
    | JBool(b: bool)
    | JNum(n: int)
    | JStr(s: string)
    | JArr(items: seq<Json>)
    | JObj(fields: map<string, Json>)

  /** Python truthiness of a decoded value (`if not value:`). */
  predicate Truthy(j: Json) {
    match j
    case JNull => false
    case JBool(b) => b
    case JNum(n) => n != 0
    case JStr(s) => |s| > 0
    case JArr(items) => |items| > 0
    case JObj(fields) => |fields| > 0
  }

  /** `key in j` for a dict; false for anything else. */
  predicate Has(j: Json, key: string) {
    j.JObj? && key in j.fields
  }

  /** The value a numeric comparison sees: ints, and booleans as 0/1. */
  function AsNumber(j: Json): Option<int> {
    match j
    case JNum(n) => Some(n)
    case JBool(b) => Some(if b then 1 else 0)
    case _ => None
  }
}

=== FILE: naming.dfy ===
/**
 * String helpers around archival and prompting: `sanitize_filename`, the
 * task-name filter of `setup_task_directory`, the zero-padded step file
 * name, the per-step action summary of `run`, and `get_action_history`.
 */
module Naming {

  import opened Wrappers
  import opened JsonValue

  /** The characters `sanitize_filename` replaces, in the order it replaces them. */
  const InvalidChars: seq<char> := [':', '/', '\\', '*', '?', '"', '<', '>', '|']

  /** `str.replace(c, repl)` for single characters. */
  function ReplaceChar(s: string, c: char, repl: char): (r: string)
    ensures |r| == |s|
    ensures forall i :: 0 <= i < |s| ==> r[i] == (if s[i] == c then repl else s[i])
  {
    if |s| == 0 then []
    else [if s[0] == c then repl else s[0]] + ReplaceChar(s[1..], c, repl)
  }

  /**
   * One `replace` pass per listed character, in order. As long as the
   * replacement is not itself listed, the passes amount to a per-character
   * substitution.
   */
  function ReplaceEach(s: string, chars: seq<char>, repl: char): (r: string)
    requires repl !in chars
    ensures |r| == |s|
    ensures forall i :: 0 <= i < |s| ==> r[i] == (if s[i] in chars then repl else s[i])
    decreases |chars|
  {
    if |chars| == 0 then s
    else ReplaceEach(ReplaceChar(s, chars[0], repl), chars[1..], repl)
  }

  /** `sanitize_filename`: the nine characters above become `_`, all others stay. */
  function SanitizeFilename(name: string): (r: string)
    ensures |r| == |name|
    ensures forall i :: 0 <= i < |name| ==> r[i] == (if name[i] in InvalidChars then '_' else name[i])
    ensures forall i :: 0 <= i < |r| ==> r[i] !in InvalidChars
  {
    ReplaceEach(name, InvalidChars, '_')
  }

  /** Sanitizing twice changes nothing more. */
  lemma SanitizeIdempotent(name: string)
    ensures SanitizeFilename(SanitizeFilename(name)) == SanitizeFilename(name)
  {
  }

  /** Longest task prefix used in the task directory name. */
  const TaskPrefix: nat := 30

  /** `c.isalnum() or c in (' ', '_')`; `isalnum` is Python's Unicode classification. */
  predicate KeepInTaskName(c: char, isalnum: char -> bool) {
    isalnum(c) || c == ' ' || c == '_'
  }

  /**
   * The generator expression over the characters: kept characters in their
   * order, others dropped. With `FilterAppend` this pins the result down
   * completely: a single character survives exactly when it is kept.
   */
  function Filter(s: string, isalnum: char -> bool): (r: string)
    ensures |r| <= |s|
    ensures forall i :: 0 <= i < |r| ==> KeepInTaskName(r[i], isalnum)
    ensures (forall i :: 0 <= i < |s| ==> KeepInTaskName(s[i], isalnum)) ==> r == s
    ensures |s| == 1 ==> (r == s <==> KeepInTaskName(s[0], isalnum)) && (r == [] <==> !KeepInTaskName(s[0], isalnum))
  {
    if |s| == 0 then []
    else (if KeepInTaskName(s[0], isalnum) then [s[0]] else []) + Filter(s[1..], isalnum)
  }

  /** Filtering distributes over concatenation. */
  lemma {:induction false} FilterAppend(a: string, b: string, isalnum: char -> bool)
    ensures Filter(a + b, isalnum) == Filter(a, isalnum) + Filter(b, isalnum)
    decreases |a|
  {
    if |a| == 0 {
      assert a + b == b;
    } else {
      FilterAppend(a[1..], b, isalnum);
      assert (a + b)[0] == a[0];
      assert (a + b)[1..] == a[1..] + b;
    }
  }

  /** How many spaces open the string. */
  function LeadingSpaces(s: string): (n: nat)
    ensures n <= |s|
    ensures forall i :: 0 <= i < n ==> s[i] == ' '
    ensures n < |s| ==> s[n] != ' '
  {
    if |s| > 0 && s[0] == ' ' then 1 + LeadingSpaces(s[1..]) else 0
  }

  /** How many spaces close the string. */
  function TrailingSpaces(s: string): (n: nat)
    ensures n <= |s|
    ensures forall i :: |s| - n <= i < |s| ==> s[i] == ' '
    ensures n < |s| ==> s[|s| - 1 - n] != ' '
  {
    if |s| > 0 && s[|s| - 1] == ' ' then 1 + TrailingSpaces(s[..|s| - 1]) else 0
  }

  /**
   * `str.strip()` on a string whose only whitespace can be `' '`: the
   * longest middle piece that neither starts nor ends with a space; only
   * spaces are dropped.
   */
  function Strip(s: string): (r: string)
    ensures |r| <= |s|
    ensures |r| > 0 ==> r[0] != ' ' && r[|r| - 1] != ' '
    ensures LeadingSpaces(s) + |r| <= |s|
    ensures r == s[LeadingSpaces(s)..LeadingSpaces(s) + |r|]
    ensures forall i :: 0 <= i < |s| && !(LeadingSpaces(s) <= i < LeadingSpaces(s) + |r|) ==> s[i] == ' '
  {
    var a := LeadingSpaces(s);
    if a == |s| then [] else s[a..|s| - TrailingSpaces(s)]
  }

  /**
   * The task part of the run directory name: the first 30 characters, kept
   * when alphanumeric, space or underscore, then stripped.
   */
  function TaskName(task: string, isalnum: char -> bool): (r: string)
    ensures |r| <= TaskPrefix
    ensures forall i :: 0 <= i < |r| ==> KeepInTaskName(r[i], isalnum)
    ensures |r| > 0 ==> r[0] != ' ' && r[|r| - 1] != ' '
    ensures var f := Filter(if |task| <= TaskPrefix then task else task[..TaskPrefix], isalnum);
      && LeadingSpaces(f) + |r| <= |f|
      && r == f[LeadingSpaces(f)..LeadingSpaces(f) + |r|]
      && forall i :: 0 <= i < |f| && !(LeadingSpaces(f) <= i < LeadingSpaces(f) + |r|) ==> f[i] == ' '
  {
    var f := Filter(if |task| <= TaskPrefix then task else task[..TaskPrefix], isalnum);
    var r := Strip(f);
    assert forall i :: 0 <= i < |r| ==> r[i] == f[LeadingSpaces(f) + i];
    r
  }

  /** A task name is a fixed point of the filter. */
  lemma TaskNameIdempotent(task: string, isalnum: char -> bool)
    ensures TaskName(TaskName(task, isalnum), isalnum) == TaskName(task, isalnum)
  {
    var r := TaskName(task, isalnum);
    assert |r| <= TaskPrefix;
    assert Filter(r, isalnum) == r;
    if |r| > 0 {
      assert LeadingSpaces(r) == 0 && TrailingSpaces(r) == 0;
    }
  }

  function DigitChar(d: nat): char
    requires d < 10
  {
    "0123456789"[d]
  }

  predicate IsDigit(c: char) {
    '0' <= c <= '9'
  }

  function DigitValue(c: char): nat
    requires IsDigit(c)
  {
    (c as int - '0' as int) as nat
  }

  /** Decimal representation without leading zeros (`"0"` for zero). */
  function Digits(n: nat): (r: string)
    ensures |r| >= 1
    ensures forall i :: 0 <= i < |r| ==> IsDigit(r[i])
    decreases n
  {
    if n < 10 then [DigitChar(n)] else Digits(n / 10) + [DigitChar(n % 10)]
  }

  /** The value of a string of decimal digits, leading zeros allowed. */
  function DecimalValue(s: string): nat
    requires forall i :: 0 <= i < |s| ==> IsDigit(s[i])
    decreases |s|
  {
    if |s| == 0 then 0 else DecimalValue(s[..|s| - 1]) * 10 + DigitValue(s[|s| - 1])
  }

  function Zeros(n: nat): (r: string)
    ensures |r| == n && forall i :: 0 <= i < n ==> r[i] == '0'
  {
    seq(n, _ => '0')
  }

  /** Python's `{n:03d}` for a non-negative count: at least three digits, zero-padded on the left. */
  function Pad3(n: nat): (r: string)
    ensures |r| >= 3
    ensures forall i :: 0 <= i < |r| ==> IsDigit(r[i])
    ensures n >= 100 ==> r == Digits(n)
  {
    var d := Digits(n);
    if |d| >= 3 then d else Zeros(3 - |d|) + d
  }

  lemma {:induction false} DigitsValue(n: nat)
    ensures DecimalValue(Digits(n)) == n
    decreases n
  {
    if n >= 10 {
      DigitsValue(n / 10);
      var d := Digits(n);
      assert d[..|d| - 1] == Digits(n / 10);
    }
  }

  lemma {:induction false} LeadingZerosValue(z: nat, s: string)
    requires forall i :: 0 <= i < |s| ==> IsDigit(s[i])
    ensures forall i :: 0 <= i < |Zeros(z) + s| ==> IsDigit((Zeros(z) + s)[i])
    ensures DecimalValue(Zeros(z) + s) == DecimalValue(s)
    decreases |s|
  {
    var zs := Zeros(z);
    if |s| == 0 {
      ZerosValue(z);
      assert zs + s == zs;
    } else {
      LeadingZerosValue(z, s[..|s| - 1]);
      assert (zs + s)[..|zs + s| - 1] == zs + s[..|s| - 1];
    }
  }

  lemma {:induction false} ZerosValue(z: nat)
    ensures DecimalValue(Zeros(z)) == 0
    decreases z
  {
    if z > 0 {
      ZerosValue(z - 1);
      assert Zeros(z)[..z - 1] == Zeros(z - 1);
    }
  }

  /** The padded counter reads back as the counter: step file names never collide. */
  lemma Pad3RoundTrip(n: nat)
    ensures DecimalValue(Pad3(n)) == n
  {
    DigitsValue(n);
    var d := Digits(n);
    if |d| < 3 {
      LeadingZerosValue(3 - |d|, d);
    }
  }

  /** `step_<NNN>_`, the part of a step file name fixed by the counter. */
  function StepPrefix(count: nat): (r: string)
    ensures |r| == 5 + |Pad3(count)| + 1
    ensures r[..5] == "step_" && r[5..5 + |Pad3(count)|] == Pad3(count) && r[|r| - 1] == '_'
    ensures forall i :: 0 <= i < |r| ==> r[i] !in InvalidChars
  {
    var d := Pad3(count);
    var r := "step_" + d + "_";
    assert forall i :: 5 <= i < 5 + |d| ==> r[i] == d[i - 5] && IsDigit(r[i]);
    r
  }

  /** `step_<NNN>_<sanitized summary>.jpg`. */
  function StepFileName(count: nat, info: string): (r: string)
    ensures |r| == |StepPrefix(count)| + |info| + 4
    ensures r[..|StepPrefix(count)|] == StepPrefix(count) && r[|r| - 4..] == ".jpg"
    ensures r[|StepPrefix(count)|..|r| - 4] == SanitizeFilename(info)
  {
    var head, mid := StepPrefix(count), SanitizeFilename(info);
    var r := head + mid + ".jpg";
    assert r[|head|..|r| - 4] == mid;
    r
  }

  /** No character of `s` is one the filesystem could reject. */
  predicate Clean(s: string) {
    forall i :: 0 <= i < |s| ==> s[i] !in InvalidChars
  }

  /** No step file name contains a character the filesystem could reject, whatever the summary. */
  lemma StepFileNameClean(count: nat, info: string)
    ensures Clean(StepFileName(count, info))
  {
    var head, mid := StepPrefix(count), SanitizeFilename(info);
    assert Clean(head) && Clean(mid);
    JpgClean();
    CleanConcat(head, mid);
    CleanConcat(head + mid, ".jpg");
    assert StepFileName(count, info) == head + mid + ".jpg";
  }

  /** The fixed suffix holds none of the listed characters. */
  lemma JpgClean()
    ensures Clean(".jpg")
  {
    var t := ".jpg";
    assert t[0] == '.' && t[1] == 'j' && t[2] == 'p' && t[3] == 'g';
    assert '.' !in InvalidChars && 'j' !in InvalidChars && 'p' !in InvalidChars && 'g' !in InvalidChars;
  }

  /** Concatenating strings free of the listed characters keeps them free of them. */
  lemma CleanConcat(a: string, b: string)
    requires Clean(a) && Clean(b)
    ensures Clean(a + b)
  {
    assert forall i :: |a| <= i < |a + b| ==> (a + b)[i] == b[i - |a|];
  }

  /** The prefixes of two different counters disagree at some position both have. */
  lemma PrefixesClash(m: nat, n: nat) returns (k: nat)
    requires m != n
    ensures k < |StepPrefix(m)| && k < |StepPrefix(n)| && StepPrefix(m)[k] != StepPrefix(n)[k]
  {
    var x, y := StepPrefix(m), StepPrefix(n);
    var p, q := Pad3(m), Pad3(n);
    Pad3RoundTrip(m);
    Pad3RoundTrip(n);
    if |p| == |q| {
      assert x[5..5 + |p|] != y[5..5 + |q|];
      k :| 5 <= k < 5 + |p| && x[k] != y[k];
    } else if |p| < |q| {
      k := 5 + |p|;
      assert y[k] == q[|p|];
    } else {
      k := 5 + |q|;
      assert x[k] == p[|q|];
    }
  }

  /** Two different counters never give the same file name, whatever the summaries. */
  lemma StepFileNamesDistinct(m: nat, n: nat, a: string, b: string)
    requires m != n
    ensures StepFileName(m, a) != StepFileName(n, b)
  {
    var k := PrefixesClash(m, n);
    var x, y := StepFileName(m, a), StepFileName(n, b);
    assert x[k] == x[..|StepPrefix(m)|][k] == StepPrefix(m)[k];
    assert y[k] == y[..|StepPrefix(n)|][k] == StepPrefix(n)[k];
  }

  /** Python `f"{v}"`: a string as itself, anything else through `str()`. */
  function Format(v: Json, show: Json -> string): string {
    if v.JStr? then v.s else show(v)
  }

  /** Python `v[:20]` on a list or string: the first twenty elements, or all of them. */
  function Clip<T>(v: seq<T>): (r: seq<T>)
    ensures |r| == if |v| <= 20 then |v| else 20
    ensures r <= v
  {
    if |v| <= 20 then v else v[..20]
  }

  /** Whether `action['text'][:20]` can be evaluated: only strings and lists can be sliced. */
  predicate Sliceable(v: Json) {
    v.JStr? || v.JArr?
  }

  /**
   * The summary `run` builds for a step: the type, then `_at_<x>_<y>` when
   * both coordinates are present, else `_<first 20 of text>` when text is.
   * `None` where the code raises: a non-dict, a missing type, or text that
   * cannot be sliced.
   */
  function ActionInfo(action: Json, show: Json -> string): (r: Option<string>)
    ensures r.None? <==>
      || !action.JObj? || "type" !in action.fields
      || (!("x" in action.fields && "y" in action.fields)
          && "text" in action.fields && !Sliceable(action.fields["text"]))
    ensures r.Some? ==>
      var f := action.fields;
      var kind := Format(f["type"], show);
      && kind <= r.value
      && ("x" in f && "y" in f ==> r.value[|kind|..] == "_at_" + Format(f["x"], show) + "_" + Format(f["y"], show))
      && (!("x" in f && "y" in f) && "text" in f && f["text"].JStr? ==> r.value[|kind|..] == "_" + Clip(f["text"].s))
      && (!("x" in f && "y" in f) && "text" in f && f["text"].JArr? ==> r.value[|kind|..] == "_" + show(JArr(Clip(f["text"].items))))
      && (!("x" in f && "y" in f) && "text" !in f ==> r.value == kind)
  {
    if !action.JObj? || "type" !in action.fields then None
    else
      var f := action.fields;
      var kind := Format(f["type"], show);
      var tail :=
        if "x" in f && "y" in f then Some("_at_" + Format(f["x"], show) + "_" + Format(f["y"], show))
        else if "text" in f then
          match f["text"]
          case JStr(t) => Some("_" + Clip(t))
          case JArr(items) => Some("_" + show(JArr(Clip(items))))
          case _ => None
        else Some("");
      match tail
      case None => None
      case Some(t) =>
        assert (kind + t)[|kind|..] == t;
        Some(kind + t)
  }

  /** With both coordinates present the text plays no part in the summary. */
  lemma CoordinatesOverrideText(fields: map<string, Json>, text: Json, show: Json -> string)
    requires "x" in fields && "y" in fields
    ensures ActionInfo(JObj(fields["text" := text]), show) == ActionInfo(JObj(fields), show)
  {
  }

  /** Texts that agree on their first 20 characters give the same summary. */
  lemma SummaryKeepsTwentyCharacters(fields: map<string, Json>, a: string, b: string, show: Json -> string)
    requires !("x" in fields && "y" in fields)
    requires Clip(a) == Clip(b)
    ensures ActionInfo(JObj(fields["text" := JStr(a)]), show) == ActionInfo(JObj(fields["text" := JStr(b)]), show)
  {
  }

  /** Shown in the prompt while no action has been accepted yet. */
  const NoHistory: string := "暂无操作历史"

  function LastN<T>(h: seq<T>, n: nat): (r: seq<T>)
    ensures |r| == if |h| <= n then |h| else n
    ensures r == h[|h| - |r|..]
  {
    if |h| <= n then h else h[|h| - n..]
  }

  /** `"\n".join(f"- {a}" for a in entries)`. */
  function Bullets(entries: seq<string>): (r: string)
    ensures |entries| > 0 ==> |r| >= 2 && r[..2] == "- "
    decreases |entries|
  {
    if |entries| == 0 then ""
    else if |entries| == 1 then "- " + entries[0]
    else "- " + entries[0] + "\n" + Bullets(entries[1..])
  }

  function CountNewlines(s: string): nat {
    if |s| == 0 then 0 else (if s[0] == '\n' then 1 else 0) + CountNewlines(s[1..])
  }

  lemma {:induction false} CountNewlinesAppend(a: string, b: string)
    ensures CountNewlines(a + b) == CountNewlines(a) + CountNewlines(b)
    decreases |a|
  {
    if |a| > 0 {
      CountNewlinesAppend(a[1..], b);
      assert (a + b)[0] == a[0];
      assert (a + b)[1..] == a[1..] + b;
      assert CountNewlines(a + b) == (if a[0] == '\n' then 1 else 0) + CountNewlines(a[1..] + b);
    } else {
      assert a + b == b;
    }
  }

  /** Single-line entries give one line per entry. */
  lemma {:induction false} BulletsLines(entries: seq<string>)
    requires |entries| > 0
    requires forall i :: 0 <= i < |entries| ==> CountNewlines(entries[i]) == 0
    ensures CountNewlines(Bullets(entries)) == |entries| - 1
    decreases |entries|
  {
    CountNewlinesAppend("- ", entries[0]);
    if |entries| > 1 {
      BulletsLines(entries[1..]);
      CountNewlinesAppend("- " + entries[0], "\n");
      CountNewlinesAppend("- " + entries[0] + "\n", Bullets(entries[1..]));
    }
  }

  /** Python `s.split("\n")`: the pieces between newlines, in order; at least one. */
  function SplitLines(s: string): (r: seq<string>)
    ensures |r| >= 1
    ensures forall i :: 0 <= i < |r| ==> '\n' !in r[i]
    decreases |s|
  {
    if |s| == 0 then [""]
    else if s[0] == '\n' then [""] + SplitLines(s[1..])
    else
      var rest := SplitLines(s[1..]);
      [[s[0]] + rest[0]] + rest[1..]
  }

  /** A string without a newline is a single line, and a newline after it starts the next one. */
  lemma {:induction false} SplitAfterLine(a: string, b: string)
    requires '\n' !in a
    ensures SplitLines(a) == [a]
    ensures SplitLines(a + "\n" + b) == [a] + SplitLines(b)
    decreases |a|
  {
    if |a| == 0 {
      assert a + "\n" + b == ['\n'] + b;
      assert (['\n'] + b)[1..] == b;
    } else {
      SplitAfterLine(a[1..], b);
      assert a[0] != '\n' by { assert a[0] in a; }
      assert (a + "\n" + b)[0] == a[0];
      assert (a + "\n" + b)[1..] == a[1..] + "\n" + b;
      assert [a[0]] + a[1..] == a;
    }
  }

  /** Entries without newlines come back, one bulleted line each and in order, when the text is split into lines. */
  lemma {:induction false} BulletsSplit(entries: seq<string>)
    requires |entries| > 0
    requires forall i :: 0 <= i < |entries| ==> '\n' !in entries[i]
    ensures |SplitLines(Bullets(entries))| == |entries|
    ensures forall i :: 0 <= i < |entries| ==> SplitLines(Bullets(entries))[i] == "- " + entries[i]
    decreases |entries|
  {
    var line := "- " + entries[0];
    assert '\n' !in line;
    if |entries| == 1 {
      SplitAfterLine(line, "");
    } else {
      BulletsSplit(entries[1..]);
      SplitAfterLine(line, Bullets(entries[1..]));
      forall i | 1 <= i < |entries|
        ensures SplitLines(Bullets(entries))[i] == "- " + entries[i]
      {
        assert entries[1..][i - 1] == entries[i];
      }
    }
  }

  /** `get_action_history`: a placeholder when empty, else the last three entries as bullets. */
  function HistoryText(history: seq<string>): (r: string)
    ensures |history| == 0 <==> r == NoHistory
    ensures |history| > 0 ==> r == Bullets(LastN(history, 3))
  {
    assert NoHistory[0] != '-';
    if |history| == 0 then NoHistory else Bullets(LastN(history, 3))
  }

  /** With single-line entries, the prompt shows exactly min(3, n) lines of history. */
  lemma HistoryShowsLastThree(history: seq<string>)
    requires |history| > 0
    requires forall i :: 0 <= i < |history| ==> CountNewlines(history[i]) == 0
    ensures CountNewlines(HistoryText(history)) + 1 == if |history| < 3 then |history| else 3
  {
    var last := LastN(history, 3);
    forall i | 0 <= i < |last|
      ensures CountNewlines(last[i]) == 0
    {
      assert last[i] == history[|history| - |last| + i];
    }
    BulletsLines(last);
  }

  /** Split into lines, the history text is the last three newline-free entries, oldest first, each after `- `. */
  lemma HistoryLinesAreLastThree(history: seq<string>)
    requires |history| > 0
    requires forall i :: 0 <= i < |history| ==> '\n' !in history[i]
    ensures var last := LastN(history, 3);
      && |SplitLines(HistoryText(history))| == |last|
      && forall i :: 0 <= i < |last| ==> SplitLines(HistoryText(history))[i] == "- " + history[|history| - |last| + i]
  {
    var last := LastN(history, 3);
    forall i | 0 <= i < |last|
      ensures '\n' !in last[i]
    {
      assert last[i] == history[|history| - |last| + i];
    }
    BulletsSplit(last);
  }
}

=== FILE: session.dfy ===
/**
 * One pass of the `run` loop and the loop itself over a finite script of
 * what the world supplies: the capture, the service's reply, the user's
 * confirmation, the screen at execution time, the clock and any raise from
 * the injection library. Printing, sleeping and the blocking keyboard wait
 * are not modelled; the wait is reduced to its answer.
 */
module Session {

  import opened Wrappers
  import opened JsonValue
  import opened Coordinates
  import opened ClickCorrector
  import opened Executor
  import opened Decision
  import opened Naming

  /** The fields of the automation object that outlive one pass. */
  datatype Agent = Agent(input: InputState, history: seq<string>, stepCount: nat, original: Option<Size>, scale: real)

  /** A freshly constructed object: out of input mode, no history, scale 1.0 and no capture yet. */
  const Constructed: Agent := Agent(Initial, [], 0, None, 1.0)

  /** What the world supplies during one pass. */
  datatype World = World(
    captured: Size,          // size of the raw screenshot, stored as `original_size`
    accepted: Option<real>,  // scale the compression search settled on; None when it left by the minimum-dimension break
    reply: Option<string>,   // the service's text, or None when the request raised
    confirmed: bool,         // Enter (true) or Esc (false)
    screenSize: Size,        // `pyautogui.size()` at execution time
    shot: Screen,            // the screenshot `execute_action` samples
    now: int,
    fault: Fault)

  datatype Status = Continue | Finished(success: bool)

  /** A saved screenshot: its counter and the summary its name is built from. */
  datatype Shot = Shot(count: nat, info: string) {
    function Name(): string {
      StepFileName(count, info)
    }
  }

  /** The state after a pass, the screenshot it saved, what it injected and whether the loop goes on. */
  datatype Pass = Pass(agent: Agent, file: Option<Shot>, effects: seq<Effect>, status: Status)

  /** `setup_task_directory`: the step counter restarts; nothing else is reset. */
  function Setup(a: Agent): (r: Agent)
    ensures r.stepCount == 0 && r.input == a.input && r.history == a.history && r.scale == a.scale
    ensures r.original == a.original
  {
    a.(stepCount := 0)
  }

  /** The action the loop acts on; the fallback and every validated action carry a `type`. */
  predicate IsNone(action: Json) {
    action.JObj? && "type" in action.fields && action.fields["type"] == JStr("none")
  }

  /**
   * One pass of the loop body. A capture that returns nothing makes the
   * tuple unpacking raise, a summary that cannot be built raises too, and
   * both end the run unsuccessfully; so does an Esc. Otherwise the action
   * runs unless its type is `none`, and the run ends successfully exactly
   * when the service said the task is completed.
   */
  function RunStep(a: Agent, w: World, parse: Parser, render: Render, show: Json -> string): (r: Pass)
    ensures r.agent.original == Some(w.captured)
    ensures w.accepted.Some? ==> r.agent.history == DecisionOf(a, w, parse, render).history
    ensures w.accepted.None? ==> r.agent.history == a.history
    ensures r.agent.scale == (if w.accepted.Some? then w.accepted.value else a.scale)
    ensures r.agent.stepCount == a.stepCount + (if r.file.Some? then 1 else 0)
    ensures var info := ActionInfo(DecisionOf(a, w, parse, render).decision.action, show);
      && (w.accepted.Some? ==> (r.file.Some? <==> info.Some?))
      && (r.file.Some? ==> w.accepted.Some? && r.file.value.info == info.value)
      && (w.accepted.Some? && info.None? ==> r.status == Finished(false) && r.effects == [])
    ensures r.file.Some? ==> r.file.value.count == a.stepCount + 1
    ensures r.status == Continue || r.status == Finished(true) ==> r.file.Some? && w.confirmed
    ensures r.effects != [] ==> r.file.Some? && w.confirmed
    ensures !w.confirmed ==> r.effects == [] && r.agent.input == a.input
    ensures Wf(a.input) ==> Wf(r.agent.input)
  {
    var a1 := a.(original := Some(w.captured));
    match w.accepted
    case None => Pass(a1, None, [], Finished(false))
    case Some(scale) =>
      var t := GetDecision(w.reply, parse, render, a1.history);
      var a2 := a1.(scale := scale, history := t.history);
      match ActionInfo(t.decision.action, show)
      case None => Pass(a2, None, [], Finished(false))
      case Some(info) =>
        var a3 := a2.(stepCount := a2.stepCount + 1);
        var file := Shot(a3.stepCount, info);
        if !w.confirmed then Pass(a3, Some(file), [], Finished(false))
        else
          var env := Env(w.screenSize, w.shot, a3.original, a3.scale);
          var step :=
            if IsNone(t.decision.action) then Step(a3.input, [], Done)
            else Execute(a3.input, env, t.decision.action, w.now, w.fault);
          Pass(a3.(input := step.state), Some(file), step.effects,
               if t.decision.completed then Finished(true) else Continue)
  }

  /** The decision a pass acts on, when the capture succeeded. */
  function DecisionOf(a: Agent, w: World, parse: Parser, render: Render): Turn {
    GetDecision(w.reply, parse, render, a.history)
  }

  /** Esc stops the run unsuccessfully without injecting anything. */
  lemma AbortStops(a: Agent, w: World, parse: Parser, render: Render, show: Json -> string)
    requires !w.confirmed
    ensures RunStep(a, w, parse, render, show).status == Finished(false)
    ensures RunStep(a, w, parse, render, show).effects == []
  {
  }

  /**
   * With a frame, a buildable summary and Enter, the run stops successfully
   * exactly when the decision says completed, after executing the action.
   */
  lemma CompletedStopsAfterExecuting(a: Agent, w: World, parse: Parser, render: Render, show: Json -> string)
    requires w.accepted.Some? && w.confirmed
    requires ActionInfo(DecisionOf(a, w, parse, render).decision.action, show).Some?
    ensures var r := RunStep(a, w, parse, render, show);
      var d := DecisionOf(a, w, parse, render).decision;
      && (r.status == Finished(true) <==> d.completed)
      && (r.status == Continue <==> !d.completed)
      && (!IsNone(d.action) ==>
            var env := Env(w.screenSize, w.shot, Some(w.captured), w.accepted.value);
            var step := Execute(a.input, env, d.action, w.now, w.fault);
            r.effects == step.effects && r.agent.input == step.state)
  {
  }

  /** A `none` action is never handed to the executor: nothing is injected and the input state stays. */
  lemma NoneNotExecuted(a: Agent, w: World, parse: Parser, render: Render, show: Json -> string)
    requires w.accepted.Some?
    requires IsNone(DecisionOf(a, w, parse, render).decision.action)
    ensures RunStep(a, w, parse, render, show).effects == []
    ensures RunStep(a, w, parse, render, show).agent.input == a.input
  {
  }

  /** A capture that left by the minimum-dimension break ends the run unsuccessfully before asking the service. */
  lemma NoFrameStops(a: Agent, w: World, parse: Parser, render: Render, show: Json -> string)
    requires w.accepted.None?
    ensures var r := RunStep(a, w, parse, render, show);
      r.status == Finished(false) && r.file.None? && r.effects == [] && r.agent.history == a.history
  {
  }

  /** What a run leaves behind: the final state, the screenshot files in order, and how it stopped. */
  datatype Trace = Trace(agent: Agent, files: seq<Shot>, status: Status)

  /** The loop over a finite script of worlds; it stops at the first pass that finishes or when the script runs out. */
  function Run(a: Agent, ws: seq<World>, parse: Parser, render: Render, show: Json -> string): Trace
    decreases |ws|
  {
    if |ws| == 0 then Trace(a, [], Continue)
    else
      var r := RunStep(a, ws[0], parse, render, show);
      if r.status.Finished? then Trace(r.agent, if r.file.Some? then [r.file.value] else [], r.status)
      else
        var rest := Run(r.agent, ws[1..], parse, render, show);
        Trace(rest.agent, [r.file.value] + rest.files, rest.status)
  }

  /**
   * The counter counts the saved screenshots, the i-th file carries counter
   * `stepCount + i + 1`, and the input state stays well formed.
   */
  lemma {:induction false} RunNumbersFiles(a: Agent, ws: seq<World>, parse: Parser, render: Render, show: Json -> string)
    ensures var t := Run(a, ws, parse, render, show);
      && t.agent.stepCount == a.stepCount + |t.files|
      && (forall i :: 0 <= i < |t.files| ==> t.files[i].count == a.stepCount + i + 1)
      && (Wf(a.input) ==> Wf(t.agent.input))
    decreases |ws|
  {
    if |ws| > 0 {
      var r := RunStep(a, ws[0], parse, render, show);
      if !r.status.Finished? {
        RunNumbersFiles(r.agent, ws[1..], parse, render, show);
        var rest := Run(r.agent, ws[1..], parse, render, show);
        var t := Run(a, ws, parse, render, show);
        assert t.files == [r.file.value] + rest.files;
        forall i | 0 <= i < |t.files|
          ensures t.files[i].count == a.stepCount + i + 1
        {
          if i > 0 {
            assert t.files[i] == rest.files[i - 1];
          }
        }
      }
    }
  }

  /** `run(task)`: the task directory is set up, then the loop starts. */
  function RunTask(a: Agent, ws: seq<World>, parse: Parser, render: Render, show: Json -> string): Trace {
    Run(Setup(a), ws, parse, render, show)
  }

  /**
   * Every task numbers its screenshots 1, 2, 3, ..., whatever earlier tasks
   * on the same object saved, and never leaves the input state ill formed.
   */
  lemma TaskNumbersFromOne(a: Agent, ws: seq<World>, parse: Parser, render: Render, show: Json -> string)
    requires Wf(a.input)
    ensures var t := RunTask(a, ws, parse, render, show);
      && t.agent.stepCount == |t.files|
      && (forall i :: 0 <= i < |t.files| ==> t.files[i].count == i + 1)
      && Wf(t.agent.input)
  {
    RunNumbersFiles(Setup(a), ws, parse, render, show);
  }

  /** The same for the first task of a freshly constructed object. */
  lemma FreshObjectNumbersFromOne(ws: seq<World>, parse: Parser, render: Render, show: Json -> string)
    ensures var t := RunTask(Constructed, ws, parse, render, show);
      && (forall i :: 0 <= i < |t.files| ==> t.files[i].count == i + 1)
      && Wf(t.agent.input)
  {
    TaskNumbersFromOne(Constructed, ws, parse, render, show);
  }

  /** No two screenshots of one run share a file name. */
  lemma RunFilesDistinct(a: Agent, ws: seq<World>, parse: Parser, render: Render, show: Json -> string)
    ensures var t := Run(a, ws, parse, render, show);
      forall i, j :: 0 <= i < j < |t.files| ==> t.files[i].Name() != t.files[j].Name()
  {
    RunNumbersFiles(a, ws, parse, render, show);
    var t := Run(a, ws, parse, render, show);
    forall i, j | 0 <= i < j < |t.files|
      ensures t.files[i].Name() != t.files[j].Name()
    {
      StepFileNamesDistinct(t.files[i].count, t.files[j].count, t.files[i].info, t.files[j].info);
    }
  }
}

=== FILE: wrappers.dfy ===
/** Optional values, used wherever the source returns `None` or may not have a value yet. */
module Wrappers {

  datatype Option<+T> = None | Some(value: T)
}
